=== FILE: README.md ===
# BizGuard landing page: lead-capture core in Dafny

This project models the logic behind the lead-capture path of the BizGuard AI
landing page:

- **Validators** (`validation.dfy`, module `Validation`). These are the email, phone and
  "required" checks. Each regular expression is written out as a character-level predicate
  and proved equal to the pattern's meaning.
- **Waitlist wizard** (`wizard.dfy`, module `Wizard`). This covers:
  - the three-step `MultiStepForm` draft as an immutable record;
  - the shallow merge `updateFormData`;
  - the step counter and the gating predicates of its buttons;
  - the accounting-software toggle and the "Other" software sync;
  - the submit flags;
  - every user event, as one transition function with a reachability invariant.
- **Submission endpoint** (`submit_route.dfy`, module `SubmitRoute`). `POST /api/submit` is a
  pure function of the data directory, the request body and the clock reading. The data
  directory is a map from file name to parsed content. The function covers classification
  by `profession`, enrichment with `timestamp` and `source`, the missing-file-as-empty rule,
  the append, and the error path.
- **Form provider** (`form_context.dfy`, module `FormContext`). This is the
  `idle → loading → success | error` status, plus the two modal flags. Fetch outcomes and
  timer firings are explicit events. `useForm` is also modelled here.
- **Page helpers** (`page.dfy`, module `Page`). These are the theme colour lookups, the
  header anchor slugs and the FAQ accordion toggle.
- **Analytics** (`analytics.dfy`, module `Analytics`). This is `validateAnalyticsData` over
  dynamic values, with JavaScript's falsy rules, and the record `trackEvent` builds.
- **The flow end to end** (`capture_flow.dfy`, module `CaptureFlow`). Every draft the wizard
  submits lands in the waitlist file. Every subscribe-form post lands in the subscription
  file. The provider's status follows the endpoint's answer.

Two more files hold shared definitions. `json.dfy` (module `Json`) has JSON values and the
JavaScript coercions the code relies on: truthiness, `typeof`, property reads and object
spread. `wrappers.dfy` (module `Wrappers`) has `Option` and `Result`.

Inputs the code gets from outside are parameters:

- the clock reading (`now`);
- how `fetch` settled (`FetchResult`);
- when a `setTimeout` callback fires (`TimerFired`);
- what `req.json()` and `JSON.parse` produced (`Body`, `StoredFile`).

The wizard's `onSubmit` is taken to be the provider's `handleFormSubmit`. The
provider posts the draft as `JSON.stringify(data)`.

Edge cases of the code that the model keeps:

- Routing tests whether `data.profession` is truthy. So `profession: 0` or `false` is
  filed as a subscription, and `profession: true`, `[]` or `{}` is filed on the waitlist
  (`SubmitRoute.Source`).
- The sticky footer button lets step 3 be reached with step 2 incomplete (see Findings).
- A `null` body answers 500, because reading `null.profession` throws. So does an existing
  log that parses to something other than an array, because `push` on it throws.

## Model

| member | source | states |
|---|---|---|
| Validation.ValidateEmail | app/utils/validation.ts:1-4 | an accepted address is at least 5 characters long ("a@b.c") and contains '@' |
| Validation.EmailMatchesPattern | app/utils/validation.ts:2 | the character-level predicate accepts a string iff it splits as segment "@" segment "." segment, each segment a non-empty run without whitespace or '@' (both directions) |
| Validation.EmailAcceptedHasOneAt | app/utils/validation.ts:2 | any accepted address contains exactly one '@' and no whitespace |
| Validation.PhoneRun | app/utils/validation.ts:7 | the `{10,}` counted scan accepts iff every character is in the class and at least ten were consumed in all |
| Validation.ValidatePhone | app/utils/validation.ts:6-9 | accepted iff length ≥ 10 and every character is an ASCII digit, whitespace, '-', '+', '(' or ')'; anything shorter than 10 is rejected |
| Validation.TrimStart | app/utils/validation.ts:12 | the result is a suffix of the input, everything dropped is whitespace, and it does not start with whitespace |
| Validation.TrimEnd | app/utils/validation.ts:12 | the result is a prefix of the input, everything dropped is whitespace, and it does not end with whitespace |
| Validation.Trim | app/utils/validation.ts:12 | the result is a contiguous part of the input, everything around it is whitespace, and when non-empty it neither starts nor ends with whitespace: only leading and trailing whitespace is removed |
| Validation.ValidateRequired | app/utils/validation.ts:11-13 | true iff the value has a non-whitespace character; whitespace-only strings are rejected |
| Validation.EmptyFailsAll | app/utils/validation.ts:1-13 | the empty string fails all three validators |
| Wizard.InitialFormData | app/components/MultiStepForm.tsx:90-102 | every text property of the opening draft is empty, both check boxes are false, the optional properties are absent, and no accounting software is chosen; so neither step's Next is enabled |
| Wizard.Start | app/components/MultiStepForm.tsx:89-104 | the wizard opens on step 1 with the blank draft, neither submitting nor submitted |
| Wizard.StartIsReachable | app/components/MultiStepForm.tsx:89-104 | the opening state satisfies both reachability invariants |
| Wizard.UpdateFormData | app/components/MultiStepForm.tsx:106-108 | merging the empty partial object leaves the draft unchanged |
| Wizard.UpdateIsSpread | app/components/MultiStepForm.tsx:106-108 | the merged draft, as an object, is the old object overwritten by exactly the keys of the partial object; every other key keeps its value |
| Wizard.UpdateIdempotent | app/components/MultiStepForm.tsx:106-108 | merging the same partial object twice equals merging it once |
| Wizard.RemoveAll | app/components/MultiStepForm.tsx:408 | `filter(id => id !== x)` drops every x, keeps every other id, never adds duplicates |
| Wizard.ToggleSoftware | app/components/MultiStepForm.tsx:405-410 | the id becomes chosen iff it was not; a newly chosen id is appended at the end; the other ids keep membership and order; no duplicates appear |
| Wizard.SyncOther | app/components/MultiStepForm.tsx:448-454 | a non-empty custom software value leaves 'other' chosen exactly once and last in the list, an empty one leaves it absent; the other ids keep their order |
| Wizard.EditCustomSoftware | app/components/MultiStepForm.tsx:448-454 | sets `customSoftware`, syncs 'other' in `currentAccounting`, and changes no other property |
| Wizard.ClickOtherProfession | app/components/MultiStepForm.tsx:204-208 | switches the profession to 'other' and clears the free-text profession, changing nothing else; no change when 'other' is already chosen |
| Wizard.NextStep | app/components/MultiStepForm.tsx:110 | `nextStep` moves one step forward and touches neither the draft nor the submission flags |
| Wizard.PrevStep | app/components/MultiStepForm.tsx:111 | `prevStep` moves one step back and touches neither the draft nor the submission flags |
| Wizard.Step1Complete | app/components/MultiStepForm.tsx:256 | step 1's Next is enabled exactly when name, age group and profession are all truthy in the JavaScript sense (`!x` is false for each) |
| Wizard.Step2Complete | app/components/MultiStepForm.tsx:363 | step 2's Next is enabled exactly when business name and company size are both truthy; an absent business name counts as falsy |
| Wizard.StepsAreInverse | app/components/MultiStepForm.tsx:110-111 | `nextStep` adds exactly 1, `prevStep` undoes it, and the draft is untouched |
| Wizard.ForwardTwiceBackOnce | app/components/MultiStepForm.tsx:110-111 | from step 1, next, next, back lands on step 2 with the draft unchanged |
| Wizard.HandleSubmit | app/components/MultiStepForm.tsx:113-115 | submitting marks the wizard as submitting and hands the current draft to `onSubmit` |
| Wizard.Settle | app/components/MultiStepForm.tsx:116-117 | once `onSubmit` resolves, whatever the request's outcome, the wizard is submitted and no longer submitting |
| Wizard.FooterNext | app/components/MultiStepForm.tsx:605-607 | corrected footer button: when the current step's own button is enabled it advances (steps 1-2) or submits (step 3), and otherwise it does nothing |
| Wizard.FooterNextAsWritten | app/components/MultiStepForm.tsx:605-607 | the footer button as written advances (steps 1-2) or submits (step 3) whenever the step-1 fields are filled in, whatever else holds, and does nothing otherwise |
| Wizard.Apply | app/components/MultiStepForm.tsx:123-621 | one user event with the footer corrected: only the current draft is ever submitted, and only from step 3 while idle, which sets `isSubmitting`; the step changes only through a Next/Back button, by one, with the draft kept, and moves forward only while that step's primary button is enabled; after submission nothing is sent and neither step nor draft changes; `isSubmitted` is only set by the settlement of an in-flight submission |
| Wizard.ApplyAsWritten | app/components/MultiStepForm.tsx:605-607 | one user event with the footer as written: every other event, and every event after submission, behaves as in `Wizard.Apply`; a submission still sends the current draft from step 3 only; the footer button moves forward or submits only when step 1 is complete |
| Wizard.ApplyPreservesInv | app/components/MultiStepForm.tsx:123-621 | with the footer corrected, every user event keeps the step in 1..3, keeps step 1 complete on steps 2-3 and step 2 complete on step 3, keeps `currentAccounting` free of duplicates; a submitted draft has both steps complete |
| Wizard.ApplyAsWrittenPreservesWeakInv | app/components/MultiStepForm.tsx:123-621 | with the footer as written, every event keeps the step in 1..3, step 1 complete beyond step 1, no duplicate ids; a submitted draft has step 1 complete |
| Wizard.RunKeepsInv | app/components/MultiStepForm.tsx:254-363 | with the footer corrected, over any run of events the invariant holds and every submitted draft has name, age group, profession, business name and company size |
| Wizard.RunAsWrittenKeepsWeakInv | app/components/MultiStepForm.tsx:256 | over any run with the footer as written, every submitted draft still has name, age group and profession |
| Wizard.FooterSkipsStep2Gate | app/components/MultiStepForm.tsx:605-607 | as written, filling in step 1 and clicking the footer button twice submits a draft without business name or company size |
| Wizard.FooterResubmitsWhileSubmitting | app/components/MultiStepForm.tsx:605-607 | as written, the footer button submits the same draft again while the first submission is in flight |
| Wizard.FooterWaitsForSubmission | app/components/MultiStepForm.tsx:510-512 | with the footer gated like the Submit button, nothing is submitted while a submission is in flight |
| Json.SpreadFields | app/api/submit/route.ts:11 | `{...data}` copies an object's own fields; for an array or string, exactly the decimal indices as keys, each with its element (string: one-character string); nothing for null, booleans and numbers |
| Json.IndexFields | app/api/submit/route.ts:11 | element i is copied under key "i" with its own value, and there are no other keys |
| Json.ParseDecimalString | app/api/submit/route.ts:11 | reading an index key back gives the index, so distinct elements get distinct keys |
| SubmitRoute.Source | app/api/submit/route.ts:13 | the source is "waitlist" iff `data.profession` is truthy, otherwise "subscription" |
| SubmitRoute.TargetFile | app/api/submit/route.ts:23-25 | the file is waitlist-submissions.json iff the source is "waitlist" and subscriptions.json iff it is "subscription" |
| SubmitRoute.Enrich | app/api/submit/route.ts:10-14 | the record keeps every property of the body, overwrites/adds `timestamp` = now and `source` = the category, and has no other keys |
| SubmitRoute.ReadLog | app/api/submit/route.ts:28-32 | a missing file reads as the empty array; a file that does not parse, or holds no array, is an error |
| SubmitRoute.Post | app/api/submit/route.ts:5-57 | status is 200 or 500; 500 exactly for a malformed or null body or an unreadable target log, with the `error` body and no write; 200 writes the old records plus the enriched body to the target file and returns `success: true` |
| SubmitRoute.PostAppends | app/api/submit/route.ts:35-38 | on success the target array grows by one, its prefix is unchanged, the last record is the enriched body, and every other file is untouched |
| SubmitRoute.FirstSubmissionCreatesFile | app/api/submit/route.ts:28-35 | the first submission of a category creates a one-record file and succeeds |
| SubmitRoute.MalformedBodyRejected | app/api/submit/route.ts:51-56 | a body that is not JSON answers 500 with an `error` property and writes nothing |
| SubmitRoute.PostKeepsWellTagged | app/api/submit/route.ts:10-38 | if every record in each log carries its own file's `source`, that stays true after any call |
| SubmitRoute.Stamped | app/api/submit/route.ts:12 | the i-th of N bodies becomes the record stamped with the i-th clock reading |
| SubmitRoute.PostAllAppendsInOrder | app/api/submit/route.ts:28-38 | N sequential submissions of one category append exactly N records in call order, each with its own call's timestamp; the other file is untouched |
| FormContext.Initial | app/contexts/FormContext.tsx:26-28 | the provider starts idle with both modals closed and no timer pending |
| FormContext.SetShown | app/contexts/FormContext.tsx:27-28 | setting a modal's visibility changes only that modal |
| FormContext.BeginSubmit | app/contexts/FormContext.tsx:32 | a submit handler first sets the status to 'loading' and changes nothing else |
| FormContext.Settle | app/contexts/FormContext.tsx:39-48 | an ok response means 'success' plus a close timer for the handler's own modal; a non-ok response or a thrown fetch means 'error' with no timer; modals unchanged |
| FormContext.HandleSubmit | app/contexts/FormContext.tsx:30-49 | a whole submit handler: 'success' with its modal's timer queued, or 'error' with nothing else changed |
| FormContext.FireTimer | app/contexts/FormContext.tsx:41-44 | the oldest timer sets the status to 'idle' and closes only the modal it was scheduled for |
| FormContext.SuccessThenTimerCloses | app/contexts/FormContext.tsx:40-44 | success followed by its timer ends idle with the handler's own modal closed and the other modal untouched |
| FormContext.FailureKeepsModals | app/contexts/FormContext.tsx:45-48 | a failed submission changes only the status, to 'error' |
| FormContext.RunKeepsSuccessHasTimer | app/contexts/FormContext.tsx:39-44 | over any run of events, while the status is 'success' a close timer is pending |
| FormContext.Apply | app/contexts/FormContext.tsx:26-73 | one provider event: opening or closing a modal leaves status and timers alone, a submit sets 'loading', the oldest timer firing sets 'idle' and is consumed, and no event leaves 'success' without a pending close timer |
| FormContext.SubscribeBody | app/contexts/FormContext.tsx:54-61 | the subscribe handler posts an object whose only key is `email`, holding the form's email string, or null when there is none |
| FormContext.UseForm | app/contexts/FormContext.tsx:91-96 | outside a provider `useForm` throws and never returns a context; inside, it returns the provider's context |
| Page.TextColor | app/page.tsx:17-20 | dark mode gives "text-white" for any theme; light mode gives the theme's entry, or "text-black" for an unknown theme |
| Page.BorderColor | app/page.tsx:21-24 | dark mode gives "border-white"; light mode gives the theme's entry, or "border-black" for an unknown theme |
| Page.BgColor | app/page.tsx:25-28 | dark mode gives "bg-gray-800"; light mode gives the theme's entry, or "bg-black" for an unknown theme |
| Page.LightModeIsOneColour | app/page.tsx:9-28 | in light mode the three helpers pick one colour, and an unknown theme gets the "black" theme's classes |
| Page.SlugChar | app/page.tsx:71 | an anchor character is never whitespace; other characters are lower-cased |
| Page.Slug | app/page.tsx:71 | the anchor has the item's length, no whitespace, '-' for each whitespace character and the lower-cased character elsewhere |
| Page.NavHref | app/page.tsx:71 | "Home" links to "/#"; any other item links to "/#" followed by its slug |
| Page.HowItWorksHref | app/page.tsx:68-71 | the header's "Home" link goes to "/#" and its "How It Works" link to "/#how-it-works" |
| Page.ToggleFaq | app/page.tsx:445 | clicking the open question closes it; clicking any other question opens it |
| Page.ToggleFaqAtMostOneOpen | app/page.tsx:393-457 | after any click at most one answer is open: the clicked one, exactly when it was closed before |
| Analytics.ValidateAnalyticsData | app/utils/analytics.ts:53-60 | acceptance needs a string event name and a number timestamp; a non-zero numeric identifier is rejected |
| Analytics.IdentifierRule | app/utils/analytics.ts:57-58 | with a valid name and timestamp, the record is accepted iff each identifier is absent, falsy or a string |
| Analytics.FalsyIdentifiersAccepted | app/utils/analytics.ts:57-58 | identifiers `0`, `false`, `null` and `""` pass the check |
| Analytics.PropertiesIgnored | app/utils/analytics.ts:53-60 | two records that differ only in `properties` validate the same |
| Analytics.TrackEventData | app/utils/analytics.ts:19-25 | no record for a null or undefined event; otherwise no identifiers, `eventName` is `event.name`, `timestamp` is now, and `properties` is `event.properties` when that is truthy, `{}` when it is not |
| Analytics.TrackedDataValidIffNamed | app/utils/analytics.ts:21-25 | a record built by `trackEvent` passes the check iff the event's `name` is a string |
| CaptureFlow.WaitlistBody | app/contexts/FormContext.tsx:33-37 | the posted draft is an object whose `profession` is the draft's profession |
| CaptureFlow.FetchResultOf | app/contexts/FormContext.tsx:39 | the handler sees `ok` iff the endpoint answered with a 2xx status |
| CaptureFlow.CompleteDraftIsWaitlist | app/api/submit/route.ts:13 | a draft with step 1 complete is filed as "waitlist" in waitlist-submissions.json |
| CaptureFlow.WizardSubmissionsGoToWaitlist | app/components/MultiStepForm.tsx:256 | every draft the wizard submits, with or without the footer fix, lands in the waitlist file |
| CaptureFlow.SubscribeIsSubscription | app/contexts/FormContext.tsx:61 | every subscribe-form post is filed as "subscription" in subscriptions.json |
| CaptureFlow.SubscribeEndToEnd | app/contexts/FormContext.tsx:51-74 | with a readable subscription log the post succeeds, leaves the waitlist file alone, and the status becomes 'success' with the subscribe timer queued; otherwise nothing is written and the status becomes 'error' |

## Findings

| source | as written | input that shows it | evidently intended | confidence | as-written member | corrected member |
|---|---|---|---|---|---|---|
| app/components/MultiStepForm.tsx:605-607 | the sticky footer's Next/Submit button is disabled only while name, age group or profession is empty, on every step and even while submitting | name "A", age group "18-25", profession "tech", then Next: on step 2 with no business name, the footer button moves to step 3, and a second click submits a draft without business name or company size; on step 3 while submitting, it submits the draft again | the footer button is gated like the current step's own button: step-2 fields on step 2, not while submitting on step 3 | medium, not executed | Wizard.FooterSkipsStep2Gate | Wizard.FooterNext |

The corrected footer is the one `Wizard.Apply` uses. `Wizard.RunKeepsInv` proves that with
it, every submitted draft has both steps complete. `Wizard.FooterResubmitsWhileSubmitting`
shows the second half of the row. `Wizard.FooterWaitsForSubmission` proves the fixed
behaviour for that half. The cross-file result `CaptureFlow.WizardSubmissionsGoToWaitlist`
holds for both the as-written and the corrected footer.

## Left out

- File-system calls: `mkdirSync`, `existsSync`, `readFileSync` and `writeFileSync`.
  - The data directory is a map from file name to parsed content.
  - `JSON.stringify` followed by `JSON.parse` of a stored array is taken to give the same
    value back.
  - Write failures (permissions, full disk) are not modelled. The source answers them with
    the same 500.
- The lost-update race between concurrent POSTs. The model is strictly sequential.
- `fetch`, the 2000 ms and 3000 ms `setTimeout` delays, `Date.now()` and `toISOString()`.
  These become inputs.
- Console logging and `gtag` calls.
- JSON numbers are integers. Fractions and their truthiness behave the same as a non-zero
  integer, and NaN does not occur in parsed JSON.
- Page.TextColor: JavaScript's `colorMap[theme]` also finds names inherited from
  `Object.prototype` (such as "toString"), and for them the source yields an undefined
  class. The model treats those as unknown themes. The page only ever uses the theme
  "black".
- Page.BorderColor: same inherited-name simplification as Page.TextColor.
- Page.BgColor: same inherited-name simplification as Page.TextColor.
- Json.SpreadFields: a string is split per Unicode code point, but JavaScript spreads it per UTF-16 code unit (`{..."😀"}` has keys "0" and "1"), so the model gives fewer keys for text outside the Basic Multilingual Plane.
- Page.Slug: `toLowerCase` is modelled for ASCII letters only. Full Unicode lower-casing can
  change length (U+0130 becomes two code units), so length preservation is a property of
  the model.
- The wizard's Cancel button and the 3-second `onClose` after submitting. They close the
  host modal, which discards the draft.
- A `File` value returned by `FormData.get('email')`. The email is a string or absent,
  and absent is posted as `null`.
- The wizard steps outside 1..3, where `renderStep` shows nothing. `Wizard.WeakInv` proves
  they are unreachable.
- `trackPageView`, `setUserProperties`, `layout.tsx` and `gtag.ts`.
- Markup, animation and view-only components.
- The duplicate FAQ toggle in `app/Landing.jsx`, which behaves like `Page.ToggleFaq`.

=== FILE: analytics.dfy ===
/** The analytics record check and the record `trackEvent` builds. Values are
    dynamic: the declared types are not enforced at run time, so each
    property may be absent or hold any JSON value. */
module Analytics {
  import opened Wrappers
  import opened Json

  /** An analytics record; `None` is a property that is absent. */
  datatype AnalyticsData = AnalyticsData(
    userId: Option<Json>,
    sessionId: Option<Json>,
    timestamp: Option<Json>,
    eventName: Option<Json>,
    properties: Option<Json>)

  /** `!v || typeof v === 'string'`. */
  predicate AbsentOrString(v: Option<Json>) {
    !Truthy(v) || TypeOf(v) == "string"
  }

  /** `validateAnalyticsData`: the event name is a string, the timestamp a
      number, and each identifier is either a string or falsy (which lets
      `0`, `false`, `null` and `""` through). `properties` is not looked at. */
  function ValidateAnalyticsData(d: AnalyticsData): (ok: bool)
    ensures ok ==> d.eventName.Some? && d.eventName.value.JStr?
    ensures ok ==> d.timestamp.Some? && d.timestamp.value.JNum?
    ensures d.userId.Some? && d.userId.value.JNum? && d.userId.value.n != 0 ==> !ok
    ensures d.sessionId.Some? && d.sessionId.value.JNum? && d.sessionId.value.n != 0 ==> !ok
  {
    && TypeOf(d.eventName) == "string"
    && TypeOf(d.timestamp) == "number"
    && AbsentOrString(d.userId)
    && AbsentOrString(d.sessionId)
  }

  /** A truthy identifier of any type other than string is rejected; a
      string or a falsy value of any type is accepted. */
  lemma IdentifierRule(d: AnalyticsData)
    requires TypeOf(d.eventName) == "string" && TypeOf(d.timestamp) == "number"
    ensures ValidateAnalyticsData(d) <==>
      && (d.userId.None? || !Truthy(d.userId) || d.userId.value.JStr?)
      && (d.sessionId.None? || !Truthy(d.sessionId) || d.sessionId.value.JStr?)
  {
  }

  /** Falsy identifiers of non-string type pass the check. */
  lemma FalsyIdentifiersAccepted(name: string, t: int)
    ensures ValidateAnalyticsData(AnalyticsData(Some(JNum(0)), Some(JBool(false)), Some(JNum(t)), Some(JStr(name)), None))
    ensures ValidateAnalyticsData(AnalyticsData(Some(JNull), Some(JStr("")), Some(JNum(t)), Some(JStr(name)), None))
  {
  }

  /** Two records that differ only in `properties` validate the same. */
  lemma PropertiesIgnored(d: AnalyticsData, p: Option<Json>)
    ensures ValidateAnalyticsData(d.(properties := p)) == ValidateAnalyticsData(d)
  {
  }

  /** The record `trackEvent` builds from `event` at time `now`: no
      identifiers, `eventName` from `event.name`, and `properties` from
      `event.properties` when truthy, else `{}`. `None` when `event` is
      `null` or `undefined`, where reading `event.name` throws (the error is
      caught and logged). */
  function TrackEventData(event: Option<Json>, now: int): (r: Option<AnalyticsData>)
    ensures r.None? <==> event.None? || event.value.JNull?
    ensures r.Some? ==> Truthy(r.value.properties)
    ensures r.Some? && Truthy(Get(event.value, "properties")) ==> r.value.properties == Get(event.value, "properties")
    ensures r.Some? && !Truthy(Get(event.value, "properties")) ==> r.value.properties == Some(JObj(map[]))
    ensures r.Some? ==> r.value.eventName == Get(event.value, "name") && r.value.timestamp == Some(JNum(now))
    ensures r.Some? ==> r.value.userId.None? && r.value.sessionId.None?
  {
    match event
    case None => None
    case Some(JNull) => None
    case Some(e) =>
      var props := Get(e, "properties");
      Some(AnalyticsData(None, None, Some(JNum(now)), Get(e, "name"),
                         if Truthy(props) then props else Some(JObj(map[]))))
  }

  /** A record built by `trackEvent` passes the check exactly when the event
      had a string `name`. */
  lemma TrackedDataValidIffNamed(event: Json, now: int)
    requires !event.JNull?
    ensures ValidateAnalyticsData(TrackEventData(Some(event), now).value) <==>
      Get(event, "name").Some? && Get(event, "name").value.JStr?
  {
  }
}

=== FILE: capture_flow.dfy ===
/** The lead-capture flow end to end: what the wizard and the subscribe form
    post, where the endpoint files it, and how the provider's status follows
    the endpoint's answer. */
module CaptureFlow {
  import opened Wrappers
  import opened Json
  import Wizard
  import SubmitRoute
  import FormContext

  /** The body `handleFormSubmit` posts for a wizard draft. */
  function WaitlistBody(d: Wizard.FormData): (b: SubmitRoute.Body)
    ensures b.BodyJson? && b.value.JObj?
    ensures Get(b.value, "profession") == Some(JStr(d.profession))
  {
    SubmitRoute.BodyJson(JObj(Wizard.FormJson(d)))
  }

  /** The body `handleSubscribeSubmit` posts. */
  function SubscribeBody(email: Option<string>): (b: SubmitRoute.Body)
    ensures b.BodyJson? && b.value.JObj? && b.value.fields.Keys == {"email"}
  {
    SubmitRoute.BodyJson(FormContext.SubscribeBody(email))
  }

  /** How `fetch` reports the endpoint's answer: `ok` for a 2xx status. */
  function FetchResultOf(r: SubmitRoute.Response): (f: FormContext.FetchResult)
    ensures f == FormContext.Responded(true) <==> 200 <= r.status < 300
  {
    FormContext.Responded(200 <= r.status < 300)
  }

  /** A draft whose step 1 is complete is filed as a waitlist submission. */
  lemma CompleteDraftIsWaitlist(d: Wizard.FormData)
    requires Wizard.Step1Complete(d)
    ensures SubmitRoute.Source(WaitlistBody(d).value) == "waitlist"
    ensures SubmitRoute.TargetFile(WaitlistBody(d).value) == SubmitRoute.WaitlistFile
  {
  }

  /** Every draft the wizard submits, with the footer as written or gated per
      step, lands in the waitlist file: the step-1 gate guarantees a
      non-empty profession. */
  lemma {:induction false} WizardSubmissionsGoToWaitlist(es: seq<Wizard.Event>, asWritten: bool)
    ensures forall d :: d in Wizard.Run(Wizard.Start(), es, asWritten).sent ==>
      SubmitRoute.TargetFile(WaitlistBody(d).value) == SubmitRoute.WaitlistFile
  {
    Wizard.StartIsReachable();
    if asWritten {
      Wizard.RunAsWrittenKeepsWeakInv(Wizard.Start(), es);
    } else {
      Wizard.RunKeepsInv(Wizard.Start(), es);
    }
    forall d | d in Wizard.Run(Wizard.Start(), es, asWritten).sent
      ensures SubmitRoute.TargetFile(WaitlistBody(d).value) == SubmitRoute.WaitlistFile
    {
      CompleteDraftIsWaitlist(d);
    }
  }

  /** Whatever the email, a subscribe-form submission lands in the
      subscription file. */
  lemma SubscribeIsSubscription(email: Option<string>)
    ensures SubmitRoute.Source(SubscribeBody(email).value) == "subscription"
    ensures SubmitRoute.TargetFile(SubscribeBody(email).value) == SubmitRoute.SubscriptionFile
  {
  }

  /** A subscription against a readable subscription log is saved, leaves the
      waitlist file alone, and turns the provider's status to 'success' with
      the subscribe modal's close timer pending; against an unreadable log it
      writes nothing and the status turns to 'error'. */
  lemma SubscribeEndToEnd(store: SubmitRoute.Store, email: Option<string>, now: string, c: FormContext.Ctx)
    ensures var o := SubmitRoute.Post(store, SubscribeBody(email), now);
      var c' := FormContext.HandleSubmit(c, FormContext.SubscribeModal, FetchResultOf(o.response));
      && (SubmitRoute.ReadLog(store, SubmitRoute.SubscriptionFile).Some? ==>
            && o.response == SubmitRoute.SuccessResponse
            && (SubmitRoute.WaitlistFile in o.store <==> SubmitRoute.WaitlistFile in store)
            && (SubmitRoute.WaitlistFile in store ==> o.store[SubmitRoute.WaitlistFile] == store[SubmitRoute.WaitlistFile])
            && c'.status == FormContext.Success
            && c'.timers == c.timers + [FormContext.SubscribeModal])
      && (SubmitRoute.ReadLog(store, SubmitRoute.SubscriptionFile).None? ==>
            o.store == store && c'.status == FormContext.Error && c'.timers == c.timers)
  {
    SubscribeIsSubscription(email);
  }
}

=== FILE: form_context.dfy ===
/** The form provider shared by the page: submit status, the visibility of
    the two modals, and the two submit handlers. The network outcome and the
    firing of the two-second timer are inputs. */
module FormContext {
  import opened Wrappers
  import opened Json

  datatype Status = Idle | Loading | Success | Error

  datatype Modal = WaitlistModal | SubscribeModal

  /** How the `fetch` of `/api/submit` settled: a response (`ok` is the
      response's `ok` flag), or a thrown error. */
  datatype FetchResult = Responded(ok: bool) | Threw

  /** The provider's state. `timers` are the pending close timers, in the
      order they were scheduled; each names the modal its callback closes. */
  datatype Ctx = Ctx(status: Status, showWaitlist: bool, showSubscribe: bool, timers: seq<Modal>)

  function Initial(): (c: Ctx)
    ensures c.status == Idle && !c.showWaitlist && !c.showSubscribe && |c.timers| == 0
  {
    Ctx(Idle, false, false, [])
  }

  function IsShown(c: Ctx, m: Modal): bool {
    if m == WaitlistModal then c.showWaitlist else c.showSubscribe
  }

  /** `setShowWaitlistModal` / `setShowSubscribeModal`. */
  function SetShown(c: Ctx, m: Modal, show: bool): (r: Ctx)
    ensures IsShown(r, m) == show
    ensures forall m' :: m' != m ==> IsShown(r, m') == IsShown(c, m')
    ensures r.status == c.status && r.timers == c.timers
  {
    if m == WaitlistModal then c.(showWaitlist := show) else c.(showSubscribe := show)
  }

  /** Either handler before its request: status 'loading'. */
  function BeginSubmit(c: Ctx): (r: Ctx)
    ensures r.status == Loading
    ensures r.(status := c.status) == c
  {
    c.(status := Loading)
  }

  /** Either handler once the request settled: an ok response means
      'success' and a close timer for the handler's own modal; a non-ok
      response or a thrown error means 'error', with the modal left open and
      no timer. */
  function Settle(c: Ctx, m: Modal, result: FetchResult): (r: Ctx)
    ensures result == Responded(true) ==> r.status == Success && r.timers == c.timers + [m]
    ensures result != Responded(true) ==> r.status == Error && r.timers == c.timers
    ensures r.showWaitlist == c.showWaitlist && r.showSubscribe == c.showSubscribe
  {
    if result.Responded? && result.ok then c.(status := Success, timers := c.timers + [m])
    else c.(status := Error)
  }

  /** `handleFormSubmit` (modal `WaitlistModal`) and `handleSubscribeSubmit`
      (modal `SubscribeModal`) from start to settlement. */
  function HandleSubmit(c: Ctx, m: Modal, result: FetchResult): (r: Ctx)
    ensures result == Responded(true) ==> r == c.(status := Success, timers := c.timers + [m])
    ensures result != Responded(true) ==> r == c.(status := Error)
  {
    Settle(BeginSubmit(c), m, result)
  }

  /** The oldest pending timer fires: status back to 'idle' and its modal
      closed; the other modal is left as it is. */
  function FireTimer(c: Ctx): (r: Ctx)
    ensures |c.timers| == 0 ==> r == c
    ensures |c.timers| > 0 ==>
      && r.status == Idle
      && !IsShown(r, c.timers[0])
      && (forall m :: m != c.timers[0] ==> IsShown(r, m) == IsShown(c, m))
      && r.timers == c.timers[1..]
  {
    if |c.timers| == 0 then c
    else SetShown(c, c.timers[0], false).(status := Idle, timers := c.timers[1..])
  }

  /** A successful submission followed by its timer: status back to 'idle',
      the handler's own modal closed, the other modal untouched. */
  lemma SuccessThenTimerCloses(c: Ctx, m: Modal)
    requires |c.timers| == 0
    ensures var r := FireTimer(HandleSubmit(c, m, Responded(true)));
      r.status == Idle && !IsShown(r, m) && |r.timers| == 0
      && (forall m' :: m' != m ==> IsShown(r, m') == IsShown(c, m'))
  {
  }

  /** A failed submission changes nothing but the status: both modals keep
      their visibility and no timer is scheduled. */
  lemma FailureKeepsModals(c: Ctx, m: Modal, result: FetchResult)
    requires result != Responded(true)
    ensures HandleSubmit(c, m, result) == c.(status := Error)
  {
  }

  datatype Event =
    | ModalShown(modal: Modal, show: bool)
    | SubmitBegun
    | SubmitSettled(modal: Modal, result: FetchResult)
    | TimerFired

  /** One event: a modal toggle leaves status and timers alone, a submit
      starts loading, a settlement is `Settle`, and a timer firing returns to
      'idle'. No event leaves 'success' without a pending timer. */
  function Apply(c: Ctx, e: Event): (r: Ctx)
    ensures e.ModalShown? ==> r.status == c.status && r.timers == c.timers
    ensures e.SubmitBegun? ==> r.status == Loading && r.timers == c.timers
    ensures e.TimerFired? && |c.timers| > 0 ==> r.status == Idle && r.timers == c.timers[1..]
    ensures SuccessHasTimer(c) ==> SuccessHasTimer(r)
  {
    match e
    case ModalShown(m, show) => SetShown(c, m, show)
    case SubmitBegun => BeginSubmit(c)
    case SubmitSettled(m, result) => Settle(c, m, result)
    case TimerFired => FireTimer(c)
  }

  /** While the status is 'success' a close timer is pending, so the status
      will return to 'idle'. */
  predicate SuccessHasTimer(c: Ctx) {
    c.status == Success ==> |c.timers| > 0
  }

  function Run(c: Ctx, es: seq<Event>): Ctx
    decreases |es|
  {
    if |es| == 0 then c else Run(Apply(c, es[0]), es[1..])
  }

  lemma {:induction false} RunKeepsSuccessHasTimer(c: Ctx, es: seq<Event>)
    requires SuccessHasTimer(c)
    ensures SuccessHasTimer(Run(c, es))
    decreases |es|
  {
    if |es| > 0 {
      var c1 := Apply(c, es[0]);
      assert SuccessHasTimer(c1);
      RunKeepsSuccessHasTimer(c1, es[1..]);
    }
  }

  /** The body `handleSubscribeSubmit` posts: `{ email }`, where a form
      without an email field gives `null`. */
  function SubscribeBody(email: Option<string>): (j: Json)
    ensures j.JObj? && j.fields.Keys == {"email"}
    ensures email.Some? <==> j.fields["email"].JStr?
    ensures email.Some? ==> j.fields["email"] == JStr(email.value)
    ensures email.None? ==> j.fields["email"] == JNull
  {
    JObj(map["email" := if email.Some? then JStr(email.value) else JNull])
  }

  const UseFormError: string := "useForm must be used within a FormProvider"

  /** `useForm`: the provider's context, or a thrown error outside one. */
  function UseForm(provided: Option<Ctx>): (r: Result<Ctx, string>)
    ensures provided.None? <==> r == Err(UseFormError)
    ensures provided.Some? ==> r == Ok(provided.value)
  {
    match provided
    case None => Err(UseFormError)
    case Some(c) => Ok(c)
  }
}

=== FILE: json.dfy ===
/** JSON values as the program sees them after `JSON.parse`, together with
    the JavaScript coercions the lead-capture code relies on: truthiness,
    `typeof`, property reads and object spread. */
module Json {
  import opened Wrappers

  /** A parsed JSON value. Numbers are modelled as integers. */
  datatype Json =
    | JNull
    | JBool(b: bool)
    | JNum(n: int)
    | JStr(s: string)
    | JArr(items: seq<Json>)
    | JObj(fields: map<string, Json>)

  /** JavaScript `ToBoolean` of a possibly absent value: `undefined`, `null`,
      `false`, `0` and `""` are falsy, everything else (including empty arrays
      and objects) is truthy. */
  predicate Truthy(v: Option<Json>) {
    match v
    case None => false
    case Some(JNull) => false
    case Some(JBool(b)) => b
    case Some(JNum(n)) => n != 0
    case Some(JStr(s)) => s != ""
    case Some(JArr(_)) => true
    case Some(JObj(_)) => true
  }

  /** JavaScript `typeof` of a possibly absent value. */
  function TypeOf(v: Option<Json>): string {
    match v
    case None => "undefined"
    case Some(JNull) => "object"
    case Some(JBool(_)) => "boolean"
    case Some(JNum(_)) => "number"
    case Some(JStr(_)) => "string"
    case Some(JArr(_)) => "object"
    case Some(JObj(_)) => "object"
  }

  /** Reading property `key` of a non-null value: an object yields its own
      field, anything else has no such data property (the keys this program
      reads are not inherited by arrays, strings, numbers or booleans).
      Reading a property of `null` throws, so callers rule it out. */
  function Get(v: Json, key: string): (r: Option<Json>)
    requires !v.JNull?
    ensures r.Some? <==> v.JObj? && key in v.fields
    ensures r.Some? ==> r.value == v.fields[key]
  {
    match v
    case JObj(fields) => if key in fields then Some(fields[key]) else None
    case _ => None
  }

  /** Decimal rendering of an array index, as used for the keys JavaScript
      gives to the elements of an array or string spread into an object. */
  function DecimalString(n: nat): (r: string)
    ensures |r| > 0
    ensures forall i :: 0 <= i < |r| ==> '0' <= r[i] <= '9'
  {
    if n < 10 then [Digit(n)] else DecimalString(n / 10) + [Digit(n % 10)]
  }

  function Digit(d: nat): (c: char)
    requires d < 10
    ensures '0' <= c <= '9'
  {
    (48 + d) as char
  }

  /** The number a string of decimal digits denotes. */
  function ParseDecimal(s: string): nat
    decreases |s|
  {
    if |s| == 0 then 0
    else 10 * ParseDecimal(s[..|s| - 1]) + (if '0' <= s[|s| - 1] <= '9' then s[|s| - 1] as int - 48 else 0)
  }

  /** Reading an index's decimal rendering back gives the index, so distinct
      indices get distinct keys. */
  lemma {:induction false} ParseDecimalString(n: nat)
    ensures ParseDecimal(DecimalString(n)) == n
    decreases n
  {
    var r := DecimalString(n);
    if n >= 10 {
      assert r[..|r| - 1] == DecimalString(n / 10);
      ParseDecimalString(n / 10);
    } else {
      assert r[..|r| - 1] == [];
    }
  }

  /** Own enumerable properties of the first `n` elements: the key of element
      `i` is `i` in decimal and its value is the element; there are no other
      keys. */
  function IndexFields(xs: seq<Json>, n: nat): (m: map<string, Json>)
    requires n <= |xs|
    ensures forall i :: 0 <= i < n ==> DecimalString(i) in m && m[DecimalString(i)] == xs[i]
    ensures forall k :: k in m ==> exists i :: 0 <= i < n && k == DecimalString(i)
  {
    var keys := set i: nat | i < n :: DecimalString(i);
    forall k | k in keys ensures ParseDecimal(k) < n {
      var i: nat :| i < n && DecimalString(i) == k;
      ParseDecimalString(i);
    }
    var m := map k | k in keys :: xs[ParseDecimal(k)];
    forall i | 0 <= i < n ensures DecimalString(i) in m && m[DecimalString(i)] == xs[i] {
      assert DecimalString(i) in keys;
      ParseDecimalString(i);
    }
    m
  }

  /** The properties `{...v}` copies: an object's own fields, an array's
      elements and a string's characters keyed by index, nothing for the
      other primitives. */
  function SpreadFields(v: Json): (m: map<string, Json>)
    ensures v.JObj? ==> m == v.fields
    ensures v.JNull? || v.JBool? || v.JNum? ==> m == map[]
    ensures v.JArr? ==> forall i :: 0 <= i < |v.items| ==> DecimalString(i) in m && m[DecimalString(i)] == v.items[i]
    ensures v.JStr? ==> forall i :: 0 <= i < |v.s| ==> DecimalString(i) in m && m[DecimalString(i)] == JStr([v.s[i]])
    ensures v.JArr? ==> forall k :: k in m ==> exists i :: 0 <= i < |v.items| && k == DecimalString(i)
    ensures v.JStr? ==> forall k :: k in m ==> exists i :: 0 <= i < |v.s| && k == DecimalString(i)
  {
    match v
    case JObj(fields) => fields
    case JArr(items) => IndexFields(items, |items|)
    case JStr(s) => IndexFields(seq(|s|, i requires 0 <= i < |s| => JStr([s[i]])), |s|)
    case _ => map[]
  }
}

=== FILE: page.dfy ===
/** The landing page's small pieces of logic: the theme colour helpers, the
    navigation anchors and the FAQ accordion. */
module Page {
  import opened Wrappers
  import Validation

  // ---------------------------------------------------------------------
  // Colour helpers
  // ---------------------------------------------------------------------

  datatype Colors = Colors(text: string, border: string, bg: string)

  /** The Tailwind classes of one colour name. */
  function Palette(c: string): Colors {
    Colors("text-" + c, "border-" + c, "bg-" + c)
  }

  /** `colorMap`: the known themes. */
  const ColorMap: map<string, Colors> := map[
    "black" := Palette("black"),
    "blue" := Palette("blue-600"),
    "green" := Palette("green-600"),
    "purple" := Palette("purple-600"),
    "red" := Palette("red-600")]

  /** `getTextColor`. */
  function TextColor(theme: string, darkMode: bool): (r: string)
    ensures darkMode ==> r == "text-white"
    ensures !darkMode && theme in ColorMap ==> r == ColorMap[theme].text
    ensures !darkMode && theme !in ColorMap ==> r == "text-black"
  {
    if theme !in ColorMap then (if darkMode then "text-white" else "text-black")
    else if darkMode then "text-white" else ColorMap[theme].text
  }

  /** `getBorderColor`. */
  function BorderColor(theme: string, darkMode: bool): (r: string)
    ensures darkMode ==> r == "border-white"
    ensures !darkMode && theme in ColorMap ==> r == ColorMap[theme].border
    ensures !darkMode && theme !in ColorMap ==> r == "border-black"
  {
    if theme !in ColorMap then (if darkMode then "border-white" else "border-black")
    else if darkMode then "border-white" else ColorMap[theme].border
  }

  /** `getBgColor`. */
  function BgColor(theme: string, darkMode: bool): (r: string)
    ensures darkMode ==> r == "bg-gray-800"
    ensures !darkMode && theme in ColorMap ==> r == ColorMap[theme].bg
    ensures !darkMode && theme !in ColorMap ==> r == "bg-black"
  {
    if theme !in ColorMap then (if darkMode then "bg-gray-800" else "bg-black")
    else if darkMode then "bg-gray-800" else ColorMap[theme].bg
  }

  /** In light mode the three helpers always agree on one colour, and an
      unknown theme gets exactly the classes of the "black" theme. */
  lemma LightModeIsOneColour(theme: string)
    ensures exists c :: Palette(c) == Colors(TextColor(theme, false), BorderColor(theme, false), BgColor(theme, false))
    ensures theme !in ColorMap ==>
      TextColor(theme, false) == TextColor("black", false)
      && BorderColor(theme, false) == BorderColor("black", false)
      && BgColor(theme, false) == BgColor("black", false)
  {
    if theme in ColorMap {
      var c :| c in ["black", "blue-600", "green-600", "purple-600", "red-600"] && ColorMap[theme] == Palette(c);
      assert Palette(c) == Colors(TextColor(theme, false), BorderColor(theme, false), BgColor(theme, false));
    } else {
      assert Palette("black") == Colors(TextColor(theme, false), BorderColor(theme, false), BgColor(theme, false));
    }
  }

  // ---------------------------------------------------------------------
  // Navigation anchors
  // ---------------------------------------------------------------------

  const NavItems: seq<string> := ["Home", "Features", "How It Works", "FAQ", "Contact"]

  /** `String.prototype.toLowerCase` on one character, for ASCII letters. */
  function LowerChar(c: char): (r: char)
    ensures 'A' <= c <= 'Z' ==> 'a' <= r <= 'z'
    ensures !('A' <= c <= 'Z') ==> r == c
  {
    if 'A' <= c <= 'Z' then (c as int + 32) as char else c
  }

  /** One character of the anchor: lower-cased, whitespace replaced by '-'. */
  function SlugChar(c: char): (r: char)
    ensures !Validation.IsWs(r)
    ensures !Validation.IsWs(c) ==> r == LowerChar(c)
  {
    var l := LowerChar(c);
    if Validation.IsWs(l) then '-' else l
  }

  /** `item.toLowerCase().replace(/\s/g, "-")`: the same length, no
      whitespace, each whitespace character turned into '-' and every other
      character lower-cased in place. */
  function Slug(item: string): (r: string)
    ensures |r| == |item|
    ensures Validation.NoWs(r)
    ensures forall i :: 0 <= i < |item| ==>
      r[i] == if Validation.IsWs(item[i]) then '-' else LowerChar(item[i])
  {
    seq(|item|, i requires 0 <= i < |item| => SlugChar(item[i]))
  }

  /** The `href` of a header link. */
  function NavHref(item: string): (r: string)
    ensures item == "Home" ==> r == "/#"
    ensures item != "Home" ==> r == "/#" + Slug(item)
    ensures |r| == if item == "Home" then 2 else 2 + |item|
  {
    if item == "Home" then "/#" else "/#" + Slug(item)
  }

  /** The header's first link goes to the top of the page, and its
      "How It Works" link to the section anchored at "how-it-works". */
  lemma HowItWorksHref()
    ensures NavHref(NavItems[0]) == "/#"
    ensures NavItems[2] == "How It Works" && NavHref(NavItems[2]) == "/#how-it-works"
  {
    var item := NavItems[2];
    var s := Slug(item);
    forall i | 0 <= i < |item| ensures s[i] == "how-it-works"[i] {
      assert Validation.IsWs(item[i]) <==> i == 3 || i == 6;
    }
    assert s == "how-it-works";
    assert "/#" + s == "/#how-it-works";
  }

  // ---------------------------------------------------------------------
  // FAQ accordion
  // ---------------------------------------------------------------------

  /** Clicking question `index`: close it if it is the open one, otherwise
      open it (closing whichever was open). */
  function ToggleFaq(active: Option<nat>, index: nat): (r: Option<nat>)
    ensures r == Some(index) <==> active != Some(index)
    ensures r.None? <==> active == Some(index)
  {
    if active == Some(index) then None else Some(index)
  }

  /** Whether answer `index` is expanded. */
  predicate IsOpen(active: Option<nat>, index: nat) {
    active == Some(index)
  }

  /** After any click the open answer is the clicked one, exactly when it was
      not already open. The first clause, at most one answer open, holds by
      construction: the accordion keeps a single optional index. */
  lemma ToggleFaqAtMostOneOpen(active: Option<nat>, index: nat, i: nat, j: nat)
    ensures IsOpen(ToggleFaq(active, index), i) && IsOpen(ToggleFaq(active, index), j) ==> i == j
    ensures IsOpen(ToggleFaq(active, index), i) <==> i == index && !IsOpen(active, index)
  {
  }
}

=== FILE: seqs.dfy ===
/** Small facts about sequence concatenation used by the proofs of several
    modules. */
module Seqs {
  lemma ConcatAssoc<T>(a: seq<T>, b: seq<T>, c: seq<T>)
    ensures a + b + c == a + (b + c)
  {
  }

  /** A sequence is its prefix, the element at `k`, and the rest. */
  lemma SplitAround<T>(s: seq<T>, k: nat)
    requires k < |s|
    ensures s == s[..k] + [s[k]] + s[k + 1..]
  {
  }

  lemma JoinAssoc<T>(a: seq<T>, x: T, b: seq<T>, y: T, c: seq<T>)
    ensures a + [x] + (b + [y] + c) == a + [x] + b + [y] + c
  {
  }
}

=== FILE: submit_route.dfy ===
/** The submission endpoint `POST /api/submit`: classify the body, enrich it
    with a timestamp and a source tag, and append it to one of two JSON array
    files. The file system is a map from file name to what `JSON.parse`
    makes of the file; the clock is a parameter. */
module SubmitRoute {
  import opened Wrappers
  import opened Json
  import Seqs

  const WaitlistFile: string := "waitlist-submissions.json"
  const SubscriptionFile: string := "subscriptions.json"

  /** A log file on disk: its text parses to a JSON value, or it does not. */
  datatype StoredFile = Parsed(value: Json) | Unparseable

  /** The data directory; a name that is not a key is a file that does not
      exist. */
  type Store = map<string, StoredFile>

  /** The request body: what `req.json()` resolves to, or a rejection. */
  datatype Body = BodyJson(value: Json) | BodyMalformed

  datatype Response = Response(status: int, body: Json)

  datatype Outcome = Outcome(store: Store, response: Response)

  const SuccessResponse: Response :=
    Response(200, JObj(map["success" := JBool(true), "message" := JStr("Submission saved successfully")]))

  const ErrorResponse: Response :=
    Response(500, JObj(map["error" := JStr("Failed to save submission")]))

  /** The category: "waitlist" exactly when the body's `profession` property
      is truthy. */
  function Source(data: Json): (src: string)
    requires !data.JNull?
    ensures src == "waitlist" <==> Truthy(Get(data, "profession"))
    ensures src == "waitlist" || src == "subscription"
  {
    if Truthy(Get(data, "profession")) then "waitlist" else "subscription"
  }

  /** The file a body is appended to, chosen by the same test as `Source`. */
  function TargetFile(data: Json): (f: string)
    requires !data.JNull?
    ensures f == WaitlistFile <==> Source(data) == "waitlist"
    ensures f == SubscriptionFile <==> Source(data) == "subscription"
  {
    if Truthy(Get(data, "profession")) then WaitlistFile else SubscriptionFile
  }

  /** `{...data, timestamp, source}`: the body's own properties, with
      `timestamp` and `source` set (overwriting any the body carried). */
  function Enrich(data: Json, now: string): (rec: Json)
    requires !data.JNull?
    ensures rec.JObj?
    ensures rec.fields.Keys == SpreadFields(data).Keys + {"timestamp", "source"}
    ensures rec.fields["timestamp"] == JStr(now) && rec.fields["source"] == JStr(Source(data))
    ensures forall k :: k in SpreadFields(data) && k != "timestamp" && k != "source" ==>
      rec.fields[k] == SpreadFields(data)[k]
  {
    JObj(SpreadFields(data)["timestamp" := JStr(now)]["source" := JStr(Source(data))])
  }

  /** The records already in a file: a missing file is the empty array, a
      file that does not parse or does not hold an array is an error
      (`JSON.parse` throws, or `push` is not a function). */
  function ReadLog(store: Store, file: string): (r: Option<seq<Json>>)
    ensures file !in store ==> r == Some([])
    ensures r.Some? && file in store ==> store[file] == Parsed(JArr(r.value))
    ensures r.None? <==> file in store && !(store[file].Parsed? && store[file].value.JArr?)
  {
    if file !in store then Some([])
    else match store[file]
      case Parsed(JArr(items)) => Some(items)
      case _ => None
  }

  /** `POST`. Every failure (malformed body, reading a property of a `null`
      body, unreadable log file) answers 500 with an `error` property and
      writes nothing. On success the target file holds its old records
      followed by the new one, and no other file changes. */
  function Post(store: Store, body: Body, now: string): (o: Outcome)
    ensures o.response.status == 200 || o.response.status == 500
    ensures o.response.status == 500 ==> o.store == store && o.response == ErrorResponse
    ensures o.response.status == 200 ==>
      && body.BodyJson? && !body.value.JNull?
      && var f := TargetFile(body.value);
      && ReadLog(store, f).Some?
      && o.store == store[f := Parsed(JArr(ReadLog(store, f).value + [Enrich(body.value, now)]))]
      && o.response == SuccessResponse
    ensures o.response.status == 500 <==>
      || body.BodyMalformed?
      || body.value.JNull?
      || ReadLog(store, TargetFile(body.value)).None?
  {
    match body
    case BodyMalformed => Outcome(store, ErrorResponse)
    case BodyJson(data) =>
      if data.JNull? then Outcome(store, ErrorResponse)
      else
        var f := TargetFile(data);
        match ReadLog(store, f)
        case None => Outcome(store, ErrorResponse)
        case Some(existing) =>
          Outcome(store[f := Parsed(JArr(existing + [Enrich(data, now)]))], SuccessResponse)
  }

  /** A successful call appends exactly one record to the target file: the
      array grows by one, its old records are kept in place, the new last
      record is the enriched body, and every other file is untouched. */
  lemma PostAppends(store: Store, body: Body, now: string)
    requires Post(store, body, now).response.status == 200
    ensures var o := Post(store, body, now);
      var f := TargetFile(body.value);
      var old_ := ReadLog(store, f).value;
      && f in o.store && o.store[f].Parsed? && o.store[f].value.JArr?
      && |o.store[f].value.items| == |old_| + 1
      && o.store[f].value.items[..|old_|] == old_
      && o.store[f].value.items[|old_|] == Enrich(body.value, now)
      && o.store.Keys == store.Keys + {f}
      && (forall g :: g in store && g != f ==> o.store[g] == store[g])
  {
    var f := TargetFile(body.value);
    var old_ := ReadLog(store, f).value;
    assert (old_ + [Enrich(body.value, now)])[..|old_|] == old_;
  }

  /** The first submission of a category creates its file with a single
      record. */
  lemma FirstSubmissionCreatesFile(store: Store, data: Json, now: string)
    requires !data.JNull? && TargetFile(data) !in store
    ensures Post(store, BodyJson(data), now).store[TargetFile(data)] == Parsed(JArr([Enrich(data, now)]))
    ensures Post(store, BodyJson(data), now).response == SuccessResponse
  {
    assert [] + [Enrich(data, now)] == [Enrich(data, now)];
  }

  /** A body that is not JSON answers 500 and changes nothing. */
  lemma MalformedBodyRejected(store: Store, now: string)
    ensures Post(store, BodyMalformed, now) == Outcome(store, ErrorResponse)
    ensures "error" in ErrorResponse.body.fields
  {
  }

  /** Every record in a log file is an object whose `source` names the
      file's category. */
  predicate WellTagged(store: Store) {
    forall f :: f in store ==>
      && (f == WaitlistFile || f == SubscriptionFile)
      && store[f].Parsed? && store[f].value.JArr?
      && forall r :: r in store[f].value.items ==>
           r.JObj? && "source" in r.fields
           && r.fields["source"] == JStr(if f == WaitlistFile then "waitlist" else "subscription")
  }

  /** Every call keeps the log files holding only records tagged with their
      own category. */
  lemma PostKeepsWellTagged(store: Store, body: Body, now: string)
    requires WellTagged(store)
    ensures WellTagged(Post(store, body, now).store)
  {
    var o := Post(store, body, now);
    if o.response.status == 200 {
      var f := TargetFile(body.value);
      var rec := Enrich(body.value, now);
      var items := ReadLog(store, f).value + [rec];
      assert o.store[f] == Parsed(JArr(items));
      forall r | r in items
        ensures r.JObj? && "source" in r.fields
          && r.fields["source"] == JStr(if f == WaitlistFile then "waitlist" else "subscription")
      {
        if r != rec {
          assert r in ReadLog(store, f).value;
        }
      }
    }
  }

  /** A sequence of calls, the i-th at clock reading `clock[i]`. */
  function PostAll(store: Store, bodies: seq<Body>, clock: seq<string>): (s': Store)
    requires |bodies| == |clock|
    decreases |bodies|
  {
    if |bodies| == 0 then store
    else PostAll(Post(store, bodies[0], clock[0]).store, bodies[1..], clock[1..])
  }

  /** The records `bodies` become when stamped with `clock`. */
  function Stamped(bodies: seq<Body>, clock: seq<string>): (recs: seq<Json>)
    requires |bodies| == |clock|
    requires forall i :: 0 <= i < |bodies| ==> bodies[i].BodyJson? && !bodies[i].value.JNull?
    ensures |recs| == |bodies|
    ensures forall i :: 0 <= i < |recs| ==> recs[i] == Enrich(bodies[i].value, clock[i])
  {
    if |bodies| == 0 then []
    else [Enrich(bodies[0].value, clock[0])] + Stamped(bodies[1..], clock[1..])
  }

  /** N sequential submissions of one category leave its file holding the old
      records followed by exactly N new ones, in call order, each stamped
      with the clock reading of its own call; the other file is untouched. */
  lemma {:induction false} PostAllAppendsInOrder(store: Store, bodies: seq<Body>, clock: seq<string>, f: string)
    requires |bodies| == |clock|
    requires forall i :: 0 <= i < |bodies| ==>
      bodies[i].BodyJson? && !bodies[i].value.JNull? && TargetFile(bodies[i].value) == f
    requires ReadLog(store, f).Some?
    ensures var s' := PostAll(store, bodies, clock);
      && ReadLog(s', f) == Some(ReadLog(store, f).value + Stamped(bodies, clock))
      && (forall g :: g != f ==> (g in s' <==> g in store) && (g in store ==> s'[g] == store[g]))
    decreases |bodies|
  {
    if |bodies| > 0 {
      var s1 := Post(store, bodies[0], clock[0]).store;
      var old_ := ReadLog(store, f).value;
      var rec := Enrich(bodies[0].value, clock[0]);
      assert s1 == store[f := Parsed(JArr(old_ + [rec]))];
      assert ReadLog(s1, f) == Some(old_ + [rec]);
      assert forall i :: 0 <= i < |bodies[1..]| ==> bodies[1..][i] == bodies[i + 1];
      PostAllAppendsInOrder(s1, bodies[1..], clock[1..], f);
      assert Stamped(bodies, clock) == [rec] + Stamped(bodies[1..], clock[1..]);
      Seqs.ConcatAssoc(old_, [rec], Stamped(bodies[1..], clock[1..]));
    } else {
      assert ReadLog(store, f).value + Stamped(bodies, clock) == ReadLog(store, f).value;
    }
  }
}

=== FILE: validation.dfy ===
/** The three input validators of the lead-capture forms, with each regular
    expression written out as a character-level predicate. */
module Validation {
  import Seqs

  /** JavaScript whitespace: the characters matched by `\s` in a regular
      expression and removed by `String.prototype.trim` (WhiteSpace and
      LineTerminator of the ECMAScript grammar). */
  predicate IsWs(c: char) {
    || c == '\t' || c == '\n' || c == '\U{000B}' || c == '\U{000C}' || c == '\r'
    || c == ' ' || c == '\U{00A0}' || c == '\U{1680}'
    || ('\U{2000}' <= c <= '\U{200A}')
    || c == '\U{2028}' || c == '\U{2029}' || c == '\U{202F}' || c == '\U{205F}'
    || c == '\U{3000}' || c == '\U{FEFF}'
  }

  predicate NoWs(s: string) {
    forall i :: 0 <= i < |s| ==> !IsWs(s[i])
  }

  // ---------------------------------------------------------------------
  // Email: /^[^\s@]+@[^\s@]+\.[^\s@]+$/
  // ---------------------------------------------------------------------

  /** The character class `[^\s@]`. */
  predicate IsEmailChar(c: char) {
    !IsWs(c) && c != '@'
  }

  /** The pattern `[^\s@]+`: a non-empty run of email characters. */
  predicate IsSegment(s: string) {
    |s| > 0 && forall i :: 0 <= i < |s| ==> IsEmailChar(s[i])
  }

  /** What the regular expression accepts, read off its structure: three
      segments joined by '@' and '.'. */
  ghost predicate MatchesEmailPattern(s: string) {
    exists a, b, c :: IsSegment(a) && IsSegment(b) && IsSegment(c) && s == a + "@" + b + "." + c
  }

  /** The domain part: email characters only, with a '.' that is neither the
      first nor the last character. */
  predicate IsDomain(d: string) {
    && (forall i :: 0 <= i < |d| ==> IsEmailChar(d[i]))
    && exists j :: 0 < j < |d| - 1 && d[j] == '.'
  }

  /** `validateEmail`: a non-empty local part free of whitespace and '@',
      then '@', then a domain. The shortest accepted address is "a@b.c". */
  function ValidateEmail(s: string): (ok: bool)
    ensures ok ==> |s| >= 5
    ensures ok ==> '@' in s
  {
    exists k :: 0 < k < |s| && s[k] == '@' && IsSegment(s[..k]) && IsDomain(s[k + 1..])
  }

  /** Every address the character-level predicate accepts splits as the
      regular expression requires. */
  lemma EmailAcceptedMatchesPattern(s: string)
    requires ValidateEmail(s)
    ensures MatchesEmailPattern(s)
  {
    var k :| 0 < k < |s| && s[k] == '@' && IsSegment(s[..k]) && IsDomain(s[k + 1..]);
    var d := s[k + 1..];
    var j :| 0 < j < |d| - 1 && d[j] == '.';
    var a, b, c := s[..k], d[..j], d[j + 1..];
    SliceIsSegment(d, 0, j);
    SliceIsSegment(d, j + 1, |d|);
    SplitAtBoth(s, k, j);
    assert IsSegment(a) && IsSegment(b) && IsSegment(c) && s == a + "@" + b + "." + c;
  }

  /** Cutting at the '@' at `k` and at the '.' at `j` of the rest gives the
      three parts back. */
  lemma SplitAtBoth(s: string, k: nat, j: nat)
    requires k < |s| && s[k] == '@'
    requires j < |s[k + 1..]| && s[k + 1..][j] == '.'
    ensures s == s[..k] + "@" + s[k + 1..][..j] + "." + s[k + 1..][j + 1..]
  {
    var d := s[k + 1..];
    Seqs.SplitAround(d, j);
    Seqs.SplitAround(s, k);
    assert [s[k]] == "@" && [d[j]] == ".";
    Seqs.JoinAssoc(s[..k], s[k], d[..j], d[j], d[j + 1..]);
  }

  /** A non-empty slice of a run of email characters is a segment. */
  lemma SliceIsSegment(d: string, lo: nat, hi: nat)
    requires lo < hi <= |d|
    requires forall i :: 0 <= i < |d| ==> IsEmailChar(d[i])
    ensures IsSegment(d[lo..hi])
  {
    forall i | 0 <= i < hi - lo ensures IsEmailChar(d[lo..hi][i]) {
      assert d[lo..hi][i] == d[lo + i];
    }
  }

  /** Every string the regular expression matches is accepted. */
  lemma PatternMatchAccepted(s: string)
    requires MatchesEmailPattern(s)
    ensures ValidateEmail(s)
  {
    var a, b, c :| IsSegment(a) && IsSegment(b) && IsSegment(c) && s == a + "@" + b + "." + c;
    var k := |a|;
    var d := b + "." + c;
    assert s == a + "@" + d;
    assert s[k] == '@' && s[..k] == a && s[k + 1..] == d;
    assert d[|b|] == '.';
    assert IsDomain(d) by {
      forall i | 0 <= i < |d| ensures IsEmailChar(d[i]) {
        if i < |b| {
          assert d[i] == b[i];
        } else if i > |b| {
          assert d[i] == c[i - |b| - 1];
        }
      }
    }
  }

  /** The character-level predicate accepts exactly the strings the regular
      expression matches. */
  lemma EmailMatchesPattern(s: string)
    ensures ValidateEmail(s) <==> MatchesEmailPattern(s)
  {
    if ValidateEmail(s) {
      EmailAcceptedMatchesPattern(s);
    }
    if MatchesEmailPattern(s) {
      PatternMatchAccepted(s);
    }
  }

  /** A run of email characters has no '@' and no whitespace. */
  lemma EmailCharsExcludeAtAndWs(a: string)
    requires forall i :: 0 <= i < |a| ==> IsEmailChar(a[i])
    ensures '@' !in a
    ensures NoWs(a)
  {
    forall i | 0 <= i < |a| ensures a[i] != '@' && !IsWs(a[i]) {
      assert IsEmailChar(a[i]);
    }
  }

  lemma NoWsJoin(a: string, x: char, d: string)
    requires NoWs(a) && !IsWs(x) && NoWs(d)
    ensures NoWs(a + [x] + d)
  {
    var s := a + [x] + d;
    forall i | 0 <= i < |s| ensures !IsWs(s[i]) {
      if i < |a| {
        assert s[i] == a[i];
      } else if i > |a| {
        assert s[i] == d[i - |a| - 1];
      }
    }
  }

  /** An accepted address contains exactly one '@' and no whitespace. */
  lemma EmailAcceptedHasOneAt(s: string)
    requires ValidateEmail(s)
    ensures NoWs(s)
    ensures multiset(s)['@'] == 1
  {
    var k :| 0 < k < |s| && s[k] == '@' && IsSegment(s[..k]) && IsDomain(s[k + 1..]);
    var a, d := s[..k], s[k + 1..];
    assert s == a + [s[k]] + d;
    EmailCharsExcludeAtAndWs(a);
    EmailCharsExcludeAtAndWs(d);
    assert multiset(s) == multiset(a) + multiset{'@'} + multiset(d);
    NoWsJoin(a, '@', d);
  }

  // ---------------------------------------------------------------------
  // Phone: /^[\d\s\-\+\(\)]{10,}$/
  // ---------------------------------------------------------------------

  /** The character class `[\d\s\-\+\(\)]`; `\d` is the ASCII digits. */
  predicate IsPhoneChar(c: char) {
    ('0' <= c <= '9') || IsWs(c) || c == '-' || c == '+' || c == '(' || c == ')'
  }

  predicate AllPhoneChars(s: string) {
    forall i :: 0 <= i < |s| ==> IsPhoneChar(s[i])
  }

  /** The counted repetition `{10,}` as a scan: `seen` is how many class
      characters have been consumed so far, saturated at 10. */
  function PhoneRun(s: string, seen: nat): (ok: bool)
    requires seen <= 10
    ensures ok <==> AllPhoneChars(s) && seen + |s| >= 10
    decreases |s|
  {
    if |s| == 0 then seen == 10
    else IsPhoneChar(s[0]) && PhoneRun(s[1..], if seen < 10 then seen + 1 else 10)
  }

  /** `validatePhone`: at least ten characters, each a digit, whitespace,
      '-', '+', '(' or ')'. */
  function ValidatePhone(s: string): (ok: bool)
    ensures ok <==> |s| >= 10 && AllPhoneChars(s)
    ensures |s| < 10 ==> !ok
  {
    PhoneRun(s, 0)
  }

  // ---------------------------------------------------------------------
  // Required: value.trim().length > 0
  // ---------------------------------------------------------------------

  /** Leading whitespace removed: `r` is a suffix of `s`, everything dropped
      was whitespace, and `r` does not start with whitespace. */
  function TrimStart(s: string): (r: string)
    ensures |r| <= |s| && r == s[|s| - |r|..]
    ensures forall i :: 0 <= i < |s| - |r| ==> IsWs(s[i])
    ensures |r| > 0 ==> !IsWs(r[0])
  {
    if |s| > 0 && IsWs(s[0]) then TrimStart(s[1..]) else s
  }

  /** Trailing whitespace removed: `r` is a prefix of `s`, everything dropped
      was whitespace, and `r` does not end with whitespace. */
  function TrimEnd(s: string): (r: string)
    ensures |r| <= |s| && r == s[..|r|]
    ensures forall i :: |r| <= i < |s| ==> IsWs(s[i])
    ensures |r| > 0 ==> !IsWs(r[|r| - 1])
  {
    if |s| > 0 && IsWs(s[|s| - 1]) then TrimEnd(s[..|s| - 1]) else s
  }

  /** `r` is the part of `s` starting at `a`, and everything of `s` around it
      is whitespace. */
  predicate InfixWithin(s: string, r: string, a: int) {
    && 0 <= a && a + |r| <= |s| && r == s[a..a + |r|]
    && forall i :: 0 <= i < |s| && !(a <= i < a + |r|) ==> IsWs(s[i])
  }

  /** `String.prototype.trim`: the input with only its leading and trailing
      whitespace removed. */
  function Trim(s: string): (r: string)
    ensures |r| > 0 ==> !IsWs(r[0]) && !IsWs(r[|r| - 1])
    ensures exists a :: InfixWithin(s, r, a)
  {
    var t := TrimStart(s);
    var r := TrimEnd(t);
    var a := |s| - |t|;
    assert r == t[..|r|];
    assert InfixWithin(s, r, a);
    r
  }

  /** `validateRequired`: the trimmed value is non-empty, which holds exactly
      when the value has a non-whitespace character. */
  function ValidateRequired(s: string): (ok: bool)
    ensures ok <==> exists i :: 0 <= i < |s| && !IsWs(s[i])
  {
    var t := TrimStart(s);
    assert forall i :: 0 <= i < |s| && !IsWs(s[i]) ==> |s| - |t| <= i && t[i - (|s| - |t|)] == s[i];
    assert |t| > 0 ==> !IsWs(t[0]) && t[0] == s[|s| - |t|];
    |Trim(s)| > 0
  }

  /** None of the three validators accepts the empty string. */
  lemma EmptyFailsAll()
    ensures !ValidateEmail("") && !ValidatePhone("") && !ValidateRequired("")
  {
  }
}

=== FILE: wizard.dfy ===
/** The waitlist wizard of `MultiStepForm`: an immutable draft record, the
    shallow merge that updates it, the step counter with its gating
    predicates, and the user events that drive the three steps. */
module Wizard {
  import opened Wrappers
  import opened Json

  // ---------------------------------------------------------------------
  // The draft and its JSON view
  // ---------------------------------------------------------------------

  /** The wizard's draft. Optional properties (`customProfession`,
      `businessName`, `customSoftware`) are absent until first set. */
  datatype FormData = FormData(
    name: string,
    ageGroup: string,
    profession: string,
    customProfession: Option<string>,
    isBusinessOwner: bool,
    phone: string,
    businessDescription: string,
    employeeRange: string,
    interestedInCustomization: bool,
    currentAccounting: seq<string>,
    email: string,
    company: string,
    businessName: Option<string>,
    customSoftware: Option<string>)

  /** `Partial<FormData>`: `None` marks a key the partial object leaves out. */
  datatype Patch = Patch(
    name: Option<string>,
    ageGroup: Option<string>,
    profession: Option<string>,
    customProfession: Option<string>,
    isBusinessOwner: Option<bool>,
    phone: Option<string>,
    businessDescription: Option<string>,
    employeeRange: Option<string>,
    interestedInCustomization: Option<bool>,
    currentAccounting: Option<seq<string>>,
    email: Option<string>,
    company: Option<string>,
    businessName: Option<string>,
    customSoftware: Option<string>)

  /** The empty partial object `{}`. */
  const NoChange: Patch :=
    Patch(None, None, None, None, None, None, None, None, None, None, None, None, None, None)

  /** The properties of a draft, by name. */
  datatype Field =
    | Name | AgeGroup | Profession | CustomProfession | IsBusinessOwner | Phone
    | BusinessDescription | EmployeeRange | InterestedInCustomization
    | CurrentAccounting | Email | Company | BusinessName | CustomSoftware

  const AllFields: set<Field> := {
    Name, AgeGroup, Profession, CustomProfession, IsBusinessOwner, Phone,
    BusinessDescription, EmployeeRange, InterestedInCustomization,
    CurrentAccounting, Email, Company, BusinessName, CustomSoftware }

  /** The JSON property name of a field; distinct fields have distinct names. */
  function FieldKey(f: Field): (k: string)
    ensures k == "profession" <==> f == Profession
  {
    match f
    case Name => "name"
    case AgeGroup => "ageGroup"
    case Profession => "profession"
    case CustomProfession => "customProfession"
    case IsBusinessOwner => "isBusinessOwner"
    case Phone => "phone"
    case BusinessDescription => "businessDescription"
    case EmployeeRange => "employeeRange"
    case InterestedInCustomization => "interestedInCustomization"
    case CurrentAccounting => "currentAccounting"
    case Email => "email"
    case Company => "company"
    case BusinessName => "businessName"
    case CustomSoftware => "customSoftware"
  }

  function StrList(xs: seq<string>): (j: Json)
    ensures j.JArr? && |j.items| == |xs|
  {
    JArr(seq(|xs|, i requires 0 <= i < |xs| => JStr(xs[i])))
  }

  function OptJson(v: Option<string>): Option<Json> {
    if v.Some? then Some(JStr(v.value)) else None
  }

  /** The value of a field of the draft, `None` while an optional field is
      unset (`JSON.stringify` then leaves the property out). */
  function FieldValue(d: FormData, f: Field): Option<Json> {
    match f
    case Name => Some(JStr(d.name))
    case AgeGroup => Some(JStr(d.ageGroup))
    case Profession => Some(JStr(d.profession))
    case CustomProfession => OptJson(d.customProfession)
    case IsBusinessOwner => Some(JBool(d.isBusinessOwner))
    case Phone => Some(JStr(d.phone))
    case BusinessDescription => Some(JStr(d.businessDescription))
    case EmployeeRange => Some(JStr(d.employeeRange))
    case InterestedInCustomization => Some(JBool(d.interestedInCustomization))
    case CurrentAccounting => Some(StrList(d.currentAccounting))
    case Email => Some(JStr(d.email))
    case Company => Some(JStr(d.company))
    case BusinessName => OptJson(d.businessName)
    case CustomSoftware => OptJson(d.customSoftware)
  }

  /** The value a partial object carries for a field, `None` when it leaves
      the key out. */
  function PatchValue(p: Patch, f: Field): Option<Json> {
    match f
    case Name => OptJson(p.name)
    case AgeGroup => OptJson(p.ageGroup)
    case Profession => OptJson(p.profession)
    case CustomProfession => OptJson(p.customProfession)
    case IsBusinessOwner => if p.isBusinessOwner.Some? then Some(JBool(p.isBusinessOwner.value)) else None
    case Phone => OptJson(p.phone)
    case BusinessDescription => OptJson(p.businessDescription)
    case EmployeeRange => OptJson(p.employeeRange)
    case InterestedInCustomization =>
      if p.interestedInCustomization.Some? then Some(JBool(p.interestedInCustomization.value)) else None
    case CurrentAccounting => if p.currentAccounting.Some? then Some(StrList(p.currentAccounting.value)) else None
    case Email => OptJson(p.email)
    case Company => OptJson(p.company)
    case BusinessName => OptJson(p.businessName)
    case CustomSoftware => OptJson(p.customSoftware)
  }

  /** A draft as an object keyed by field. */
  function FormFields(d: FormData): map<Field, Json> {
    map f | f in AllFields && FieldValue(d, f).Some? :: FieldValue(d, f).value
  }

  /** A partial object as an object keyed by field. */
  function PatchFields(p: Patch): map<Field, Json> {
    map f | f in AllFields && PatchValue(p, f).Some? :: PatchValue(p, f).value
  }

  /** The object `JSON.stringify` serialises for a draft, keyed by property
      name. */
  function FormJson(d: FormData): (m: map<string, Json>)
    ensures "profession" in m && m["profession"] == JStr(d.profession)
  {
    var fields := FormFields(d);
    assert Profession in fields;
    map f | f in fields :: FieldKey(f) := fields[f]
  }

  // ---------------------------------------------------------------------
  // updateFormData
  // ---------------------------------------------------------------------

  /** `updateFormData(p)`: `{...prev, ...p}`. */
  function UpdateFormData(d: FormData, p: Patch): (r: FormData)
    ensures p == NoChange ==> r == d
  {
    FormData(
      p.name.GetOr(d.name),
      p.ageGroup.GetOr(d.ageGroup),
      p.profession.GetOr(d.profession),
      if p.customProfession.Some? then p.customProfession else d.customProfession,
      p.isBusinessOwner.GetOr(d.isBusinessOwner),
      p.phone.GetOr(d.phone),
      p.businessDescription.GetOr(d.businessDescription),
      p.employeeRange.GetOr(d.employeeRange),
      p.interestedInCustomization.GetOr(d.interestedInCustomization),
      p.currentAccounting.GetOr(d.currentAccounting),
      p.email.GetOr(d.email),
      p.company.GetOr(d.company),
      if p.businessName.Some? then p.businessName else d.businessName,
      if p.customSoftware.Some? then p.customSoftware else d.customSoftware)
  }

  /** The merge is JavaScript object spread: the updated draft serialises to
      the old draft's object overwritten by exactly the keys of the partial
      object, and every other key keeps its value. */
  lemma UpdateIsSpread(d: FormData, p: Patch)
    ensures FormFields(UpdateFormData(d, p)) == FormFields(d) + PatchFields(p)
  {
    var l, r := FormFields(UpdateFormData(d, p)), FormFields(d) + PatchFields(p);
    forall f
      ensures f in l <==> f in r
      ensures f in l ==> l[f] == r[f]
    {
      UpdateField(d, p, f);
    }
    assert l.Keys == r.Keys;
  }

  /** One property of the merge: the partial object's value when it has the
      key, the old draft's otherwise. */
  lemma UpdateField(d: FormData, p: Patch, f: Field)
    ensures FieldValue(UpdateFormData(d, p), f) ==
      if PatchValue(p, f).Some? then PatchValue(p, f) else FieldValue(d, f)
  {
  }

  /** Applying the same partial object twice is the same as applying it once. */
  lemma UpdateIdempotent(d: FormData, p: Patch)
    ensures UpdateFormData(UpdateFormData(d, p), p) == UpdateFormData(d, p)
  {
  }

  // ---------------------------------------------------------------------
  // Option lists
  // ---------------------------------------------------------------------

  const AgeGroupIds: seq<string> := ["18-25", "26-35", "36-45", "46-55", "56+"]
  const ProfessionIds: seq<string> := ["accountant", "business", "finance", "tech", "consultant", "other"]
  const EmployeeRangeIds: seq<string> := ["solo", "small", "large", "enterprise"]
  const SoftwareIds: seq<string> :=
    ["quickbooks", "xero", "sage", "zoho", "tally", "excel", "other", "none"]

  // ---------------------------------------------------------------------
  // Field-level operations
  // ---------------------------------------------------------------------

  /** The draft the wizard opens with: every text field empty, both boxes
      unchecked, no accounting software chosen, optional fields unset. */
  function InitialFormData(): (d: FormData)
    ensures !Step1Complete(d) && !Step2Complete(d)
    ensures d.currentAccounting == []
    ensures d.customProfession == None && d.businessName == None && d.customSoftware == None
    ensures forall f :: f != CurrentAccounting ==> !Truthy(FieldValue(d, f))
  {
    FormData("", "", "", None, false, "", "", "", false, [], "", "", None, None)
  }

  /** `xs.filter(id => id !== x)`. */
  function RemoveAll(xs: seq<string>, x: string): (r: seq<string>)
    ensures x !in r
    ensures forall y :: y != x ==> (y in r <==> y in xs)
    ensures |r| <= |xs|
    ensures x !in xs ==> r == xs
    ensures NoDuplicates(xs) ==> NoDuplicates(r)
  {
    if |xs| == 0 then []
    else if xs[0] == x then RemoveAll(xs[1..], x)
    else
      var rest := RemoveAll(xs[1..], x);
      if NoDuplicates(xs) then
        NoDuplicatesCons(xs);
        assert xs[0] !in rest;
        NoDuplicatesPrepend(xs[0], rest);
        [xs[0]] + rest
      else [xs[0]] + rest
  }

  lemma NoDuplicatesCons(xs: seq<string>)
    requires |xs| > 0 && NoDuplicates(xs)
    ensures NoDuplicates(xs[1..]) && xs[0] !in xs[1..]
  {
    forall i, j | 0 <= i < j < |xs| - 1 ensures xs[1..][i] != xs[1..][j] {
      assert xs[1..][i] == xs[i + 1] && xs[1..][j] == xs[j + 1];
    }
    forall j | 0 <= j < |xs| - 1 ensures xs[1..][j] != xs[0] {
      assert xs[1..][j] == xs[j + 1];
    }
  }

  lemma NoDuplicatesPrepend(a: string, r: seq<string>)
    requires a !in r && NoDuplicates(r)
    ensures NoDuplicates([a] + r)
  {
    var t := [a] + r;
    forall i, j | 0 <= i < j < |t| ensures t[i] != t[j] {
      assert t[j] == r[j - 1];
      if i > 0 {
        assert t[i] == r[i - 1];
      }
    }
  }

  /** Clicking an accounting-software button: remove the id if chosen,
      otherwise append it. */
  function ToggleSoftware(xs: seq<string>, id: string): (r: seq<string>)
    ensures id in r <==> id !in xs
    ensures id !in xs ==> r == xs + [id]
    ensures RemoveAll(r, id) == RemoveAll(xs, id)
    ensures NoDuplicates(xs) ==> NoDuplicates(r)
  {
    if id in xs then
      RemoveAllIdempotent(xs, id);
      RemoveAll(xs, id)
    else
      RemoveAllAppend(xs, id);
      xs + [id]
  }

  /** Editing the free-text software field: a non-empty value keeps 'other'
      chosen exactly once (moved to the end), an empty value drops it; the
      other ids keep their order either way. */
  function SyncOther(xs: seq<string>, value: string): (r: seq<string>)
    ensures value != "" ==> multiset(r)["other"] == 1
    ensures value != "" ==> |r| > 0 && r[|r| - 1] == "other"
    ensures value == "" ==> "other" !in r
    ensures RemoveAll(r, "other") == RemoveAll(xs, "other")
    ensures NoDuplicates(xs) ==> NoDuplicates(r)
  {
    var rest := RemoveAll(xs, "other");
    RemoveAllIdempotent(xs, "other");
    if value != "" then
      RemoveAllAppend(rest, "other");
      rest + ["other"]
    else rest
  }

  /** The "Other" profession button: switches to 'other' and clears the
      free-text profession, unless 'other' is already chosen. */
  function ClickOtherProfession(d: FormData): (r: FormData)
    ensures d.profession == "other" ==> r == d
    ensures d.profession != "other" ==>
      r.profession == "other" && r.customProfession == Some("")
    ensures forall f :: f != Profession && f != CustomProfession ==> FieldValue(r, f) == FieldValue(d, f)
  {
    if d.profession != "other" then
      var p := NoChange.(profession := Some("other"), customProfession := Some(""));
      forall f | f != Profession && f != CustomProfession
        ensures FieldValue(UpdateFormData(d, p), f) == FieldValue(d, f)
      {
        UpdateField(d, p, f);
      }
      UpdateFormData(d, p)
    else d
  }

  /** The free-text software input's change handler. */
  function EditCustomSoftware(d: FormData, value: string): (r: FormData)
    ensures r.customSoftware == Some(value)
    ensures r.currentAccounting == SyncOther(d.currentAccounting, value)
    ensures forall f :: f != CustomSoftware && f != CurrentAccounting ==> FieldValue(r, f) == FieldValue(d, f)
  {
    var p := NoChange.(customSoftware := Some(value), currentAccounting := Some(SyncOther(d.currentAccounting, value)));
    forall f | f != CustomSoftware && f != CurrentAccounting
      ensures FieldValue(UpdateFormData(d, p), f) == FieldValue(d, f)
    {
      UpdateField(d, p, f);
    }
    UpdateFormData(d, p)
  }

  lemma RemoveAllIdempotent(xs: seq<string>, x: string)
    ensures RemoveAll(RemoveAll(xs, x), x) == RemoveAll(xs, x)
  {
  }

  lemma {:induction false} RemoveAllAppend(xs: seq<string>, x: string)
    ensures RemoveAll(xs + [x], x) == RemoveAll(xs, x)
  {
    if |xs| > 0 {
      assert (xs + [x])[1..] == xs[1..] + [x];
      RemoveAllAppend(xs[1..], x);
    } else {
      assert RemoveAll([x], x) == RemoveAll([x][1..], x);
    }
  }

  // ---------------------------------------------------------------------
  // Steps, gating and events
  // ---------------------------------------------------------------------

  /** The step-1 "Next" button is enabled: name, age group and profession
      are all non-empty. */
  predicate Step1Complete(d: FormData)
    ensures Step1Complete(d) <==>
      Truthy(FieldValue(d, Name)) && Truthy(FieldValue(d, AgeGroup)) && Truthy(FieldValue(d, Profession))
  {
    d.name != "" && d.ageGroup != "" && d.profession != ""
  }

  /** The step-2 "Next" button is enabled: a non-empty business name and a
      company size. */
  predicate Step2Complete(d: FormData)
    ensures Step2Complete(d) <==> Truthy(FieldValue(d, BusinessName)) && Truthy(FieldValue(d, EmployeeRange))
  {
    d.businessName.Some? && d.businessName.value != "" && d.employeeRange != ""
  }

  predicate NoDuplicates(xs: seq<string>) {
    forall i, j :: 0 <= i < j < |xs| ==> xs[i] != xs[j]
  }

  /** The wizard: step counter, draft, and the two submission flags. Once
      `isSubmitted` holds the thank-you view replaces the steps. */
  datatype WizardState = WizardState(step: int, data: FormData, isSubmitting: bool, isSubmitted: bool)

  function Start(): (s: WizardState)
    ensures s.step == 1 && !s.isSubmitting && !s.isSubmitted
    ensures s.data == InitialFormData()
  {
    WizardState(1, InitialFormData(), false, false)
  }

  /** `nextStep`: no bounds check of its own; the buttons guard it. */
  function NextStep(s: WizardState): (r: WizardState)
    ensures r.step == s.step + 1
    ensures r.data == s.data && r.isSubmitting == s.isSubmitting && r.isSubmitted == s.isSubmitted
  {
    s.(step := s.step + 1)
  }

  /** `prevStep`. */
  function PrevStep(s: WizardState): (r: WizardState)
    ensures r.step == s.step - 1
    ensures r.data == s.data && r.isSubmitting == s.isSubmitting && r.isSubmitted == s.isSubmitted
  {
    s.(step := s.step - 1)
  }

  /** `nextStep` and `prevStep` undo each other and touch nothing else. */
  lemma StepsAreInverse(s: WizardState)
    ensures PrevStep(NextStep(s)) == s && NextStep(PrevStep(s)) == s
    ensures NextStep(s).step == s.step + 1 && NextStep(s).data == s.data
  {
  }

  /** Two steps forward and one back from step 1 land on step 2 with the
      draft unchanged. */
  lemma ForwardTwiceBackOnce(s: WizardState)
    requires s.step == 1
    ensures PrevStep(NextStep(NextStep(s))) == s.(step := 2)
  {
  }

  /** What the user can do. Each event only has an effect when its control
      is rendered and enabled in the current view. */
  datatype Event =
    | NameTyped(value: string)
    | AgeGroupPicked(id: string)
    | ProfessionPicked(id: string)
    | OtherProfessionClicked
    | CustomProfessionTyped(value: string)
    | BusinessNameTyped(value: string)
    | BusinessOwnerChecked(checked: bool)
    | EmployeeRangePicked(id: string)
    | DescriptionTyped(value: string)
    | PhoneTyped(value: string)
    | SoftwareClicked(id: string)
    | CustomSoftwareTyped(value: string)
    | CustomizationChecked(checked: bool)
    | NextClicked
    | BackClicked
    | SubmitClicked
    | FooterBackClicked
    | FooterNextClicked
    | SubmitSettled

  /** The state after an event, and the draft handed to `onSubmit` if the
      event submitted one. */
  datatype Reaction = Reaction(next: WizardState, sent: Option<FormData>)

  function Quiet(s: WizardState): Reaction {
    Reaction(s, None)
  }

  function Edit(s: WizardState, p: Patch): Reaction {
    Quiet(s.(data := UpdateFormData(s.data, p)))
  }

  /** `handleSubmit` up to the `await`: mark the wizard as submitting and
      hand the current draft to `onSubmit`. */
  function HandleSubmit(s: WizardState): (r: Reaction)
    ensures r.sent == Some(s.data) && r.next.isSubmitting
    ensures r.next.step == s.step && r.next.data == s.data
  {
    Reaction(s.(isSubmitting := true), Some(s.data))
  }

  /** `handleSubmit` after `onSubmit` resolves. The provider's submit
      handler catches every failure, so this happens whether or not the
      request succeeded. */
  function Settle(s: WizardState): (r: WizardState)
    ensures s.isSubmitting ==> !r.isSubmitting && r.isSubmitted
    ensures r.step == s.step && r.data == s.data
  {
    if s.isSubmitting then s.(isSubmitting := false, isSubmitted := true) else s
  }

  /** The current step's own primary button ("Next" or "Submit") is enabled. */
  predicate PrimaryEnabled(s: WizardState) {
    || (s.step == 1 && Step1Complete(s.data))
    || (s.step == 2 && Step2Complete(s.data))
    || (s.step == 3 && !s.isSubmitting)
  }

  /** The sticky footer's Next/Submit button, gated like the button of the
      step on show. */
  function FooterNext(s: WizardState): (r: Reaction)
    ensures r.next.step > s.step || r.sent.Some? ==> PrimaryEnabled(s)
    ensures PrimaryEnabled(s) && s.step < 3 ==> r == Quiet(NextStep(s))
    ensures PrimaryEnabled(s) && s.step == 3 ==> r == HandleSubmit(s)
    ensures !PrimaryEnabled(s) ==> r == Quiet(s)
  {
    if !PrimaryEnabled(s) then Quiet(s)
    else if s.step == 3 then HandleSubmit(s)
    else Quiet(NextStep(s))
  }

  /** The sticky footer's Next/Submit button as written: disabled only while
      a step-1 field is empty, whichever step is on show. */
  function FooterNextAsWritten(s: WizardState): (r: Reaction)
    ensures r.next.step > s.step || r.sent.Some? ==> Step1Complete(s.data)
    ensures Step1Complete(s.data) && s.step < 3 ==> r == Quiet(NextStep(s))
    ensures Step1Complete(s.data) && s.step == 3 ==> r == HandleSubmit(s)
    ensures !Step1Complete(s.data) ==> r == Quiet(s)
  {
    if !Step1Complete(s.data) then Quiet(s)
    else if s.step == 3 then HandleSubmit(s)
    else Quiet(NextStep(s))
  }

  /** One event. A draft is only sent from step 3 while no submission is in
      flight, and it is the current draft; the step only moves by one, on a
      navigation event, without touching the draft, and only forward when the
      step's own button is enabled; after submission only the settlement
      has an effect. */
  function Apply(s: WizardState, e: Event): (r: Reaction)
    ensures r.sent.Some? ==>
      r.sent == Some(s.data) && s.step == 3 && !s.isSubmitting && !s.isSubmitted && r.next == s.(isSubmitting := true)
    ensures r.next.step != s.step ==>
      && !s.isSubmitted && r.next.data == s.data
      && (e.NextClicked? || e.BackClicked? || e.FooterBackClicked? || e.FooterNextClicked?)
      && (r.next.step == s.step + 1 || r.next.step == s.step - 1)
    ensures r.next.step > s.step ==> PrimaryEnabled(s) && s.step < 3
    ensures s.isSubmitted ==> r.sent.None? && r.next.step == s.step && r.next.data == s.data && r.next.isSubmitted
    ensures r.next.isSubmitted ==> s.isSubmitted || (e.SubmitSettled? && s.isSubmitting)
  {
    if s.isSubmitted then
      if e.SubmitSettled? then Quiet(Settle(s)) else Quiet(s)
    else
      match e
      case NameTyped(v) =>
        if s.step == 1 then Edit(s, NoChange.(name := Some(v))) else Quiet(s)
      case AgeGroupPicked(id) =>
        if s.step == 1 && id in AgeGroupIds then Edit(s, NoChange.(ageGroup := Some(id))) else Quiet(s)
      case ProfessionPicked(id) =>
        if s.step == 1 && id in ProfessionIds && id != "other"
        then Edit(s, NoChange.(profession := Some(id))) else Quiet(s)
      case OtherProfessionClicked =>
        if s.step == 1 then Quiet(s.(data := ClickOtherProfession(s.data))) else Quiet(s)
      case CustomProfessionTyped(v) =>
        if s.step == 1 && s.data.profession == "other"
        then Edit(s, NoChange.(customProfession := Some(v))) else Quiet(s)
      case BusinessNameTyped(v) =>
        if s.step == 2 then Edit(s, NoChange.(businessName := Some(v))) else Quiet(s)
      case BusinessOwnerChecked(b) =>
        if s.step == 2 then Edit(s, NoChange.(isBusinessOwner := Some(b))) else Quiet(s)
      case EmployeeRangePicked(id) =>
        if s.step == 2 && id in EmployeeRangeIds then Edit(s, NoChange.(employeeRange := Some(id))) else Quiet(s)
      case DescriptionTyped(v) =>
        if s.step == 2 || s.step == 3 then Edit(s, NoChange.(businessDescription := Some(v))) else Quiet(s)
      case PhoneTyped(v) =>
        if s.step == 3 then Edit(s, NoChange.(phone := Some(v))) else Quiet(s)
      case SoftwareClicked(id) =>
        if s.step == 3 && id in SoftwareIds && id != "other"
        then Edit(s, NoChange.(currentAccounting := Some(ToggleSoftware(s.data.currentAccounting, id))))
        else Quiet(s)
      case CustomSoftwareTyped(v) =>
        if s.step == 3 then Quiet(s.(data := EditCustomSoftware(s.data, v))) else Quiet(s)
      case CustomizationChecked(b) =>
        if s.step == 3 then Edit(s, NoChange.(interestedInCustomization := Some(b))) else Quiet(s)
      case NextClicked =>
        if (s.step == 1 && Step1Complete(s.data)) || (s.step == 2 && Step2Complete(s.data))
        then Quiet(NextStep(s)) else Quiet(s)
      case BackClicked =>
        if s.step == 2 || s.step == 3 then Quiet(PrevStep(s)) else Quiet(s)
      case SubmitClicked =>
        if s.step == 3 && !s.isSubmitting then HandleSubmit(s) else Quiet(s)
      case FooterBackClicked =>
        if s.step > 1 then Quiet(PrevStep(s)) else Quiet(s)
      case FooterNextClicked =>
        FooterNext(s)
      case SubmitSettled =>
        Quiet(Settle(s))
  }

  /** One event, with the footer button as written: the same as `Apply`
      except for the footer's Next/Submit, which only needs step 1 complete. */
  function ApplyAsWritten(s: WizardState, e: Event): (r: Reaction)
    ensures !e.FooterNextClicked? || s.isSubmitted ==> r == Apply(s, e)
    ensures r.sent.Some? ==> r.sent == Some(s.data) && s.step == 3 && !s.isSubmitted
    ensures e.FooterNextClicked? && (r.next.step > s.step || r.sent.Some?) ==> Step1Complete(s.data)
  {
    if !s.isSubmitted && e.FooterNextClicked? then FooterNextAsWritten(s) else Apply(s, e)
  }

  /** Every state reachable with the footer as written: the step stays in
      1..3, steps 2 and 3 are only shown with step 1 complete, and no
      accounting id is chosen twice. */
  predicate WeakInv(s: WizardState) {
    && 1 <= s.step <= 3
    && (s.step >= 2 ==> Step1Complete(s.data))
    && NoDuplicates(s.data.currentAccounting)
  }

  /** Every reachable state: in addition, step 3 is only shown with step 2
      complete. */
  predicate Inv(s: WizardState) {
    WeakInv(s) && (s.step == 3 ==> Step2Complete(s.data))
  }

  /** Every event keeps the invariant, and a draft is only submitted once
      both steps are complete. */
  lemma ApplyPreservesInv(s: WizardState, e: Event)
    requires Inv(s)
    ensures Inv(Apply(s, e).next)
    ensures Apply(s, e).sent.Some? ==>
      Step1Complete(Apply(s, e).sent.value) && Step2Complete(Apply(s, e).sent.value)
  {
  }

  /** With the footer as written the weaker invariant survives every event,
      and a submitted draft still has step 1 complete. */
  lemma ApplyAsWrittenPreservesWeakInv(s: WizardState, e: Event)
    requires WeakInv(s)
    ensures WeakInv(ApplyAsWritten(s, e).next)
    ensures ApplyAsWritten(s, e).sent.Some? ==> Step1Complete(ApplyAsWritten(s, e).sent.value)
  {
  }

  /** The final state of a run of events and the drafts it submitted, in
      order. */
  datatype Trace = Trace(final: WizardState, sent: seq<FormData>)

  function ApplyWith(s: WizardState, e: Event, asWritten: bool): Reaction {
    if asWritten then ApplyAsWritten(s, e) else Apply(s, e)
  }

  function Run(s: WizardState, es: seq<Event>, asWritten: bool): (t: Trace)
    ensures |t.sent| <= |es|
    decreases |es|
  {
    if |es| == 0 then Trace(s, [])
    else
      var r := ApplyWith(s, es[0], asWritten);
      var t := Run(r.next, es[1..], asWritten);
      Trace(t.final, (if r.sent.Some? then [r.sent.value] else []) + t.sent)
  }

  /** From any reachable state, every run stays reachable, and every draft it
      submits has both steps complete, so in particular a non-empty
      profession. */
  lemma {:induction false} RunKeepsInv(s: WizardState, es: seq<Event>)
    requires Inv(s)
    ensures Inv(Run(s, es, false).final)
    ensures forall d :: d in Run(s, es, false).sent ==> Step1Complete(d) && Step2Complete(d)
    decreases |es|
  {
    if |es| > 0 {
      ApplyPreservesInv(s, es[0]);
      RunKeepsInv(Apply(s, es[0]).next, es[1..]);
    }
  }

  /** With the footer as written, every submitted draft still has step 1
      complete, so a non-empty profession. */
  lemma {:induction false} RunAsWrittenKeepsWeakInv(s: WizardState, es: seq<Event>)
    requires WeakInv(s)
    ensures WeakInv(Run(s, es, true).final)
    ensures forall d :: d in Run(s, es, true).sent ==> Step1Complete(d)
    decreases |es|
  {
    if |es| > 0 {
      ApplyAsWrittenPreservesWeakInv(s, es[0]);
      RunAsWrittenKeepsWeakInv(ApplyAsWritten(s, es[0]).next, es[1..]);
    }
  }

  lemma StartIsReachable()
    ensures Inv(Start()) && WeakInv(Start())
  {
  }

  /** As written, the footer button skips the step-2 gate: after filling in
      step 1 only, two clicks on it submit a draft with no business name and
      no company size. */
  lemma FooterSkipsStep2Gate()
    ensures
      var es := [NameTyped("A"), AgeGroupPicked("18-25"), ProfessionPicked("tech"),
                 NextClicked, FooterNextClicked, FooterNextClicked];
      var t := Run(Start(), es, true);
      |t.sent| == 1 && !Step2Complete(t.sent[0]) && t.sent[0].businessName == None
  {
    var es := [NameTyped("A"), AgeGroupPicked("18-25"), ProfessionPicked("tech"),
               NextClicked, FooterNextClicked, FooterNextClicked];
    var d := InitialFormData().(name := "A", ageGroup := "18-25", profession := "tech");
    var a := Start().(data := InitialFormData().(name := "A"));
    var b := a.(data := a.data.(ageGroup := "18-25"));
    var c := WizardState(1, d, false, false);
    var s2 := WizardState(2, d, false, false);
    var s3 := WizardState(3, d, false, false);
    var done := s3.(isSubmitting := true);
    assert "18-25" in AgeGroupIds;
    assert "tech" in ProfessionIds;
    assert ApplyAsWritten(Start(), es[0]) == Quiet(a);
    assert ApplyAsWritten(a, es[1]) == Quiet(b);
    assert ApplyAsWritten(b, es[2]) == Quiet(c);
    assert ApplyAsWritten(c, es[3]) == Quiet(s2);
    assert ApplyAsWritten(s2, es[4]) == Quiet(s3);
    assert ApplyAsWritten(s3, es[5]) == Reaction(done, Some(d));
    assert Run(done, es[6..], true) == Trace(done, []);
    assert Run(s3, es[5..], true) == Trace(done, [d]);
    assert Run(s2, es[4..], true) == Trace(done, [d]);
    assert Run(c, es[3..], true) == Trace(done, [d]);
    assert Run(b, es[2..], true) == Trace(done, [d]);
    assert Run(a, es[1..], true) == Trace(done, [d]);
  }

  /** As written, the footer button also stays enabled while a submission is
      in flight, so the same draft can be submitted twice. */
  lemma FooterResubmitsWhileSubmitting(s: WizardState)
    requires WeakInv(s) && s.step == 3 && !s.isSubmitted
    ensures ApplyAsWritten(s, FooterNextClicked).sent == Some(s.data)
    ensures ApplyAsWritten(ApplyAsWritten(s, FooterNextClicked).next, FooterNextClicked).sent == Some(s.data)
  {
  }

  /** With the footer gated per step, no draft is submitted while another is
      in flight. */
  lemma FooterWaitsForSubmission(s: WizardState)
    requires s.isSubmitting
    ensures Apply(s, FooterNextClicked).sent == None && Apply(s, SubmitClicked).sent == None
  {
  }
}

=== FILE: wrappers.dfy ===
/** Failure-carrying values shared by the rest of the model. */
module Wrappers {

  /** A value that may be absent: JavaScript's `undefined` for a missing
      property, or an optional record field. */
  datatype Option<+T> = None | Some(value: T) {
    function GetOr(default: T): T {
      match this
      case Some(v) => v
      case None => default
    }
  }

  /** The outcome of an operation that can throw. */
  datatype Result<+R, +E> = Ok(value: R) | Err(error: E)
}
